=== FILE: README.md ===
# Weather app: account forms, navigation, drawer and forecast selection

A Dafny model of the logic inside an Android weather client's screens. The app shows current, hourly and five-day
forecasts and has login and sign-up screens backed by a user service. Almost all of it is declarative UI. The model
keeps the parts that make decisions:

- **Password policy** (`PasswordPolicy`, `password.dfy`). This covers `validatePassword`, the list of unmet rules in
  the fixed order length, uppercase, lowercase, digit, special character. It also covers the Strong / Medium / Weak
  strength meter.
- **Form fields** (`Forms`, `forms.dfy`). A field holds its text, error flag and error text. This module also has the
  shared e-mail check, the network-error text and the request / outcome datatypes.
- **Sign-up screen** (`Signup`, `signup.dfy`). Editing a field clears only that field's error. Submit-time validation
  gives each field the first check it fails. The request is sent only when no field is flagged. The reply is then
  mapped to an outcome and an error text, and `loading` ends on every path.
- **Login screen** (`Login`, `login.dfy`). Same structure as sign-up. The e-mail gets the same two checks. The
  password is only checked for blankness. The submit button is disabled while loading. The error text comes from the
  reply's JSON error body.
- **Main activity** (`App`, `app.dfy`). This is the three-screen state machine. It also holds the signed-in user's
  display name (from the e-mail's local part), the welcome banner with its 5000 ms countdown, and the logout dialog.
- **Menu drawer** (`Drawer`, `drawer.dfy`). The offset is clamped to `[-width, 0]`. The drawer counts as visible past
  a tenth of its width. A gesture's end snaps it open or closed, and the menu icon toggles it.
- **Forecast panels** (`Forecast`, `forecast.dfy`). This covers the fallback coordinates, the "12:00:00" filter of the
  five-day list, the first eight entries of the hourly row, the `(h + 3i) mod 24` hour labels, and the date and
  `HH:MM` pieces of a timestamp.

Three more modules are helpers: `Optional` for Kotlin's nullable values, `Text` for the Kotlin string functions
used (`isBlank`, `contains`, `substring`, `substringBefore`, `replaceFirstChar`, `joinToString`), and `Ranges` for
`coerceIn`, which both the drawer and the strength meter use.

Each UI event handler becomes a pure function from the screen's state (an immutable record) to its next state.
Each network request is split in two: a submit that returns the request it would send, and a resolve that takes the
reply as an input datatype.

Four behaviours of the code are easy to miss. The model follows the code as written:

- **Sign-up double submit.** The sign-up button is not disabled while loading, so a second submit sends a second
  request. `Signup.ResubmitWhileLoadingSendsAgain` shows this. The login button is disabled while loading.
- **Login fallback text.** The login screen's fallback error text is "Signup failed", as written.
- **Screen-wide drag handler.** It is active on every screen, whether or not anyone is signed in. It follows a
  hidden drawer only while the finger is within 50 px of the left edge, and the drawer counts as visible once a tenth
  of its width is uncovered. In the model, which ignores touch slop, a single swipe over the screen opens a closed
  drawer for a logged-out user, with its "Logout" entry, exactly when the drawer is narrower than 500 px
  (`App.EdgeDragOpensDrawerWhenLoggedOut`, `App.EdgeSwipeLeavesWideDrawerClosed`). The drawer's own drag handler
  cannot help: a fully closed drawer lies off screen (`App.ClosedDrawerIgnoresDrawerDrag`).
- **Sign-up success callback.** `Signup.kt` declares and calls a zero-argument success callback, while the activity
  passes a callback that takes the e-mail. The model's sign-up outcome carries the submitted e-mail, as the
  activity expects.

## Model

| member | source | states |
|---|---|---|
| PasswordPolicy.ValidatePassword | app/src/main/java/com/example/weatherapp/Signup.kt:56-65 | at most five entries, all rule messages, in rule order without repeats; a rule's message is present iff the password breaks it; empty iff the password has 8+ characters, an uppercase, a lowercase, a digit and a special character |
| PasswordPolicy.MessagesMatchRules | app/src/main/java/com/example/weatherapp/Signup.kt:58-63 | each of the five literal messages appears iff its own check fails |
| PasswordPolicy.Broken | app/src/main/java/com/example/weatherapp/Signup.kt:57-64 | keeps exactly the broken rules of the list, in the list's order, and with the met ones they account for the whole list |
| PasswordPolicy.MissingComplementsMet | app/src/main/java/com/example/weatherapp/Signup.kt:157-159 | unmet plus met rules is always five, so `metRules = 5 - missing.size` counts the met rules |
| PasswordPolicy.StrengthMeter | app/src/main/java/com/example/weatherapp/Signup.kt:156-167 | no meter for an empty password; fraction in [0,1] equal to met rules / 5; Strong iff the policy accepts; Medium iff rejected with fraction >= 0.6; Weak iff fraction < 0.6 |
| PasswordPolicy.StrengthByMissingCount | app/src/main/java/com/example/weatherapp/Signup.kt:163-167 | Strong iff nothing missing, Medium iff one or two rules missing, Weak iff three or more |
| PasswordPolicy.StrongIsExactlyAcceptable | app/src/main/java/com/example/weatherapp/Signup.kt:164 | the Strong label and an empty unmet list coincide |
| Forms.Edit | app/src/main/java/com/example/weatherapp/Signup.kt:131-135 | the text is replaced; a shown error's flag and text are cleared; otherwise the text is left alone; flag/text agreement is kept |
| Forms.Judge | app/src/main/java/com/example/weatherapp/Signup.kt:214-246 | after a submit the field keeps its text and shows exactly the check's result (no error, or the one failing message) |
| Forms.EmailError | app/src/main/java/com/example/weatherapp/Signup.kt:219-225 | "Please enter email" iff blank; "Invalid email address" iff non-blank and not matching the address pattern; no error iff non-blank and matching |
| Forms.NetworkError | app/src/main/java/com/example/weatherapp/Signup.kt:264 | the text is "Network error: " followed by the exception's message, or "null" when it has none |
| Signup.EditEmail | app/src/main/java/com/example/weatherapp/Signup.kt:130-136 | the e-mail takes the new text and loses its error; the other fields, loading, apiError and valid are unchanged |
| Signup.EditPassword | app/src/main/java/com/example/weatherapp/Signup.kt:147-153 | the password takes the new text and loses its error; everything else is unchanged |
| Signup.EditConfirmPassword | app/src/main/java/com/example/weatherapp/Signup.kt:200-206 | the confirmation takes the new text and loses its error; everything else is unchanged |
| Signup.EditsKeepConsistency | app/src/main/java/com/example/weatherapp/Signup.kt:131-205 | edits never make a field's error flag and error text disagree |
| Signup.AcceptableIsNotBlank | app/src/main/java/com/example/weatherapp/Signup.kt:228-236 | a password the policy accepts is never blank, so the blank check cannot hide an acceptable password |
| Signup.PasswordError | app/src/main/java/com/example/weatherapp/Signup.kt:228-237 | "Please enter password" iff blank; no error iff the policy accepts; otherwise "Password is too weak: missing " + the unmet rules joined by ", " |
| Signup.WeakMessageNamesEachBrokenRule | app/src/main/java/com/example/weatherapp/Signup.kt:232-235 | the too-weak text contains the message of every rule the password breaks |
| Signup.ConfirmPasswordError | app/src/main/java/com/example/weatherapp/Signup.kt:240-246 | "Please confirm password" iff blank; "Passwords do not match" iff non-blank and different; no error iff equal and non-blank |
| Signup.Submit | app/src/main/java/com/example/weatherapp/Signup.kt:211-251 | field texts unchanged; each field shows its first failing check and nothing else; valid reset; request sent iff no field is flagged, with the field texts; then loading and apiError cleared, otherwise both untouched |
| Signup.SubmitSendsIffValid | app/src/main/java/com/example/weatherapp/Signup.kt:249 | the request is sent iff the e-mail is non-blank and matches, the password meets the policy, and the confirmation equals it |
| Signup.Resolve | app/src/main/java/com/example/weatherapp/Signup.kt:252-267 | loading ends on every path; success iff successful reply with an object id, carrying the submitted e-mail; otherwise valid is false and apiError is the body's message, "Signup failed", or the network error |
| Signup.ShownApiError | app/src/main/java/com/example/weatherapp/Signup.kt:278-280 | the request error is shown iff the form is invalid and has an error text |
| Signup.RejectionIsShown | app/src/main/java/com/example/weatherapp/Signup.kt:259-264 | after any failure the failure's own text is what the screen shows |
| Signup.ResubmitWhileLoadingSendsAgain | app/src/main/java/com/example/weatherapp/Signup.kt:210-251 | while loading, a second valid submit sends the same request again (no loading guard on this button) |
| Login.EditEmail | app/src/main/java/com/example/weatherapp/Login.kt:134-140 | the e-mail takes the new text and loses its error; password, its flag, loading, apiError and valid unchanged |
| Login.EditPassword | app/src/main/java/com/example/weatherapp/Login.kt:150-155 | the password takes the new text and its flag is cleared; the e-mail field and the request state are unchanged |
| Login.Submit | app/src/main/java/com/example/weatherapp/Login.kt:170-194 | while loading nothing happens; otherwise the e-mail shows its first failing check, the password is flagged iff blank, valid is reset, and the request is sent iff neither is flagged, with loading set and apiError cleared |
| Login.SubmitSendsIffValid | app/src/main/java/com/example/weatherapp/Login.kt:187-191 | the request is sent iff idle, the e-mail is non-blank and matches, and the password is non-blank: no strength policy at login |
| Login.AtMostOneInFlight | app/src/main/java/com/example/weatherapp/Login.kt:191-223 | after a submit that sends a request, no edits and no further submit send another one |
| Login.ErrorBodyMessage | app/src/main/java/com/example/weatherapp/Login.kt:206-212 | the error body's "message" entry, or "Signup failed" when the body is not a JSON object or lacks the entry |
| Login.ResolveAsWritten | app/src/main/java/com/example/weatherapp/Login.kt:201-219 | loading ends on every path and the fields are untouched; success iff a successful reply with a token, and the callback then receives the e-mail field as it is when the reply arrives together with the reply's token; any other reply marks the form invalid with the error body's message or "Signup failed"; an exception marks it invalid with "Network error: " and the exception's message |
| Login.ResolveAsWrittenUsesFieldEmail | app/src/main/java/com/example/weatherapp/Login.kt:203 | for every form and reply, the code as written acts as if the request had been sent with the e-mail field's current value |
| Login.Resolve | app/src/main/java/com/example/weatherapp/Login.kt:195-219 | loading ends on every path; success iff successful reply with a token, carrying the submitted e-mail and the token; otherwise valid is false and apiError is the error-body message or the network error |
| Login.ResolveAgreesWhenUnedited | app/src/main/java/com/example/weatherapp/Login.kt:203 | the code as written and the corrected resolve agree whenever the e-mail field was not edited during the request |
| Login.EditedEmailReachesCallback | app/src/main/java/com/example/weatherapp/Login.kt:203 | a concrete run where the field is edited mid-request and the code as written signs in the edited e-mail |
| Login.ShownApiError | app/src/main/java/com/example/weatherapp/Login.kt:251-254 | the error line is shown iff the form is invalid, with the error text or "" |
| Login.RejectionIsShown | app/src/main/java/com/example/weatherapp/Login.kt:204-216 | after any failure the failure's own text is what the screen shows |
| Login.SubmitHidesOldError | app/src/main/java/com/example/weatherapp/Login.kt:175 | a submit resets valid, so an earlier request's error is hidden |
| Text.SubstringBefore | app/src/main/java/com/example/weatherapp/MainActivity.kt:232 | the result is the prefix of the e-mail before its first '@', all of it when there is none |
| Text.Contains | app/src/main/java/com/example/weatherapp/DailyWeather.kt:69 | the empty string and the string itself are always contained, and nothing longer than the string is |
| Text.ContainsInside | app/src/main/java/com/example/weatherapp/DailyWeather.kt:69 | an occurrence survives adding text on either side |
| Text.Substring | app/src/main/java/com/example/weatherapp/HourlyWeather.kt:80 | present iff 0 <= start <= end <= length, and then the characters start to end - 1 in order |
| Text.IsWhitespace | app/src/main/java/com/example/weatherapp/Signup.kt:219 | space, tab, line feed and carriage return are whitespace; letters and digits are not |
| Text.IsBlank | app/src/main/java/com/example/weatherapp/Login.kt:178 | the empty string is blank; a string holding a letter or a digit is not |
| Text.BlankIffTrimsToEmpty | app/src/main/java/com/example/weatherapp/Signup.kt:228 | a string is blank exactly when removing its leading whitespace leaves nothing |
| Text.Join | app/src/main/java/com/example/weatherapp/Signup.kt:235 | nothing for no items; with two or more, the separator comes right after the first item |
| Text.JoinStartsWithFirst | app/src/main/java/com/example/weatherapp/Signup.kt:235 | the joined text starts with the first item |
| Text.JoinLength | app/src/main/java/com/example/weatherapp/Signup.kt:235 | the joined length is the items' total plus one separator between each neighbouring pair |
| Text.JoinEndsWithLast | app/src/main/java/com/example/weatherapp/Signup.kt:235 | the joined text ends with the last item |
| Text.JoinContainsEach | app/src/main/java/com/example/weatherapp/Signup.kt:235 | every joined item occurs in the joined text |
| App.Start | app/src/main/java/com/example/weatherapp/MainActivity.kt:78-90 | the activity starts on the weather screen, signed out, with no banner or dialog and the drawer closed |
| App.Step | app/src/main/java/com/example/weatherapp/MainActivity.kt:181-253 | the drawer stays within its range; the screen changes only along a navigation edge; the user changes only by a successful auth (to its display name) or a confirmed logout (to none); the logout dialog opens only from a visible drawer |
| App.EveryEdgeIsTaken | app/src/main/java/com/example/weatherapp/MainActivity.kt:199-250 | each of the six edges Weather->Login/Signup, Login->Signup/Weather, Signup->Login/Weather is taken by its control |
| App.LeavingWeatherNeedsLoggedOut | app/src/main/java/com/example/weatherapp/MainActivity.kt:199-203 | the weather screen is left only through the header's two buttons, shown only while signed out |
| Text.ToUpper | app/src/main/java/com/example/weatherapp/MainActivity.kt:232 | a lower-case letter becomes the same letter in upper case; every other character is unchanged |
| Text.Capitalize | app/src/main/java/com/example/weatherapp/MainActivity.kt:232 | the same length; the first character uppercased and the rest unchanged |
| App.WelcomeText | app/src/main/java/com/example/weatherapp/MainActivity.kt:234 | the greeting is "Welcome, Dear " followed by exactly the name |
| App.DisplayName | app/src/main/java/com/example/weatherapp/MainActivity.kt:232 | the name holds no '@', is the e-mail up to its first '@' (all of it without one), with the first character uppercased |
| App.DisplayNameOfAddress | app/src/main/java/com/example/weatherapp/MainActivity.kt:245 | for local + "@" + domain with an '@'-free local part, the name is the capitalised local part |
| App.AuthSuccessSignsIn | app/src/main/java/com/example/weatherapp/MainActivity.kt:231-236 | after success the screen is Weather, the user is the capitalised local part, and the banner reads "Welcome, Dear " + name |
| App.Welcome | app/src/main/java/com/example/weatherapp/MainActivity.kt:128-131 | the banner shows the new text; its countdown restarts unless the text is unchanged |
| App.Countdown | app/src/main/java/com/example/weatherapp/MainActivity.kt:131-136 | the banner disappears once 5000 ms have elapsed, otherwise it keeps its text with the time added |
| App.GreetingExpires | app/src/main/java/com/example/weatherapp/MainActivity.kt:128-136 | a fresh greeting is still shown after 4999 ms, gone after 5000 ms, and gone at once when tapped |
| App.ConfirmLogoutSignsOut | app/src/main/java/com/example/weatherapp/MainActivity.kt:358-362 | confirming logout clears the user, closes the dialog and the drawer, and keeps the screen |
| App.DismissLogoutOnlyCloses | app/src/main/java/com/example/weatherapp/MainActivity.kt:366-369 | dismissing the dialog changes nothing else |
| App.MenuIconToggles | app/src/main/java/com/example/weatherapp/MainActivity.kt:212-218 | for a signed-in user the menu icon makes a hidden drawer visible and a visible one hidden |
| App.DragThrough | app/src/main/java/com/example/weatherapp/MainActivity.kt:167-176 | the screen drag events of a finger moving through a list of positions change exactly the drawer, as the drawer-level gesture does |
| App.EdgeSwipe | app/src/main/java/com/example/weatherapp/MainActivity.kt:143-178 | a whole swipe over the screen changes only the drawer, on every screen and whether or not anyone is signed in |
| App.EdgeDragOpensDrawerWhenLoggedOut | app/src/main/java/com/example/weatherapp/MainActivity.kt:143-178 | from the start state, with nobody signed in, a swipe from the left edge whose positions and distances agree opens a drawer narrower than 500 px |
| App.EdgeSwipeLeavesWideDrawerClosed | app/src/main/java/com/example/weatherapp/MainActivity.kt:143-178 | a closed drawer 500 px or wider is unchanged by any swipe over the screen at non-negative positions |
| App.OverlayTapClosesVisibleDrawer | app/src/main/java/com/example/weatherapp/MainActivity.kt:262-270 | tapping the shade closes a visible drawer and changes nothing else; with the drawer hidden it changes nothing |
| App.ClosedDrawerIgnoresDrawerDrag | app/src/main/java/com/example/weatherapp/MainActivity.kt:273-298 | a fully closed drawer, being off screen, is not moved by its own drag handler |
| Drawer.Closed | app/src/main/java/com/example/weatherapp/MainActivity.kt:90 | the drawer starts at -width, inside its range and not visible |
| Ranges.CoerceIn | app/src/main/java/com/example/weatherapp/MainActivity.kt:99 | the result lies in [lo, hi]: x itself when inside, the nearer bound otherwise (the strength meter's fraction at Signup.kt:160 uses the same operation) |
| Drawer.Visible | app/src/main/java/com/example/weatherapp/MainActivity.kt:93-94 | visible iff more than a tenth of the width is open; a fully open drawer is visible and a fully closed one is not |
| Drawer.MoveTo | app/src/main/java/com/example/weatherapp/MainActivity.kt:97-110 | the drawer settles on the target clamped into [-width, 0]; in-range targets are reached exactly |
| Drawer.Open | app/src/main/java/com/example/weatherapp/MainActivity.kt:154 | the drawer settles at 0 and is visible |
| Drawer.Close | app/src/main/java/com/example/weatherapp/MainActivity.kt:268 | the drawer settles at -width and is not visible |
| Drawer.Toggle | app/src/main/java/com/example/weatherapp/MainActivity.kt:113-117 | a visible drawer ends closed and hidden, any other ends open and visible |
| Drawer.ToggleTwiceRestoresSettled | app/src/main/java/com/example/weatherapp/MainActivity.kt:113-117 | two toggles return a fully open or fully closed drawer to where it was |
| Drawer.OpenPartially | app/src/main/java/com/example/weatherapp/MainActivity.kt:120-126 | the offset is x - width for x within [0, width], -width below, 0 above, always in range |
| Drawer.DragBy | app/src/main/java/com/example/weatherapp/MainActivity.kt:291-298 | the offset moves by the drag amount when that stays in range, and stops at the nearer bound otherwise |
| Drawer.Snap | app/src/main/java/com/example/weatherapp/MainActivity.kt:151-166 | the result is 0 or -width; 0 iff the offset was past -width/2; visible afterwards iff it was past halfway |
| Drawer.SnapIdempotent | app/src/main/java/com/example/weatherapp/MainActivity.kt:283-289 | snapping a snapped drawer changes nothing |
| Drawer.HalfOpenIsVisible | app/src/main/java/com/example/weatherapp/MainActivity.kt:93-94 | a drawer more than half open is past the visibility threshold |
| Drawer.EdgeDragStart | app/src/main/java/com/example/weatherapp/MainActivity.kt:145-150 | a start within 50 px of the left edge on a hidden drawer puts it at -width; otherwise nothing changes |
| Drawer.FollowFinger | app/src/main/java/com/example/weatherapp/MainActivity.kt:167-176 | the drawer keeps its width and stays in range while the finger moves through any list of positions |
| Drawer.EdgeGesture | app/src/main/java/com/example/weatherapp/MainActivity.kt:143-178 | after a whole gesture (down, moves, up) the drawer is fully open or fully closed and keeps its width |
| Drawer.FollowFingerStaysNearEdge | app/src/main/java/com/example/weatherapp/MainActivity.kt:167-176 | while a drawer 500 px or wider is followed, it stays uncovered by no more than the finger's distance from the edge and less than 50 px |
| Drawer.WideDrawerIgnoresEdgeGesture | app/src/main/java/com/example/weatherapp/MainActivity.kt:143-178 | a closed drawer 500 px or wider is still closed after a whole gesture: put down, moved anywhere right of the edge, lifted |
| Drawer.NarrowDrawerOpensByEdgeGesture | app/src/main/java/com/example/weatherapp/MainActivity.kt:143-178 | a closed drawer narrower than 500 px is fully open after an edge gesture that pauses inside the edge zone past a tenth of the width |
| Drawer.ScreenDrag | app/src/main/java/com/example/weatherapp/MainActivity.kt:167-176 | a screen drag moves the drawer only when it is visible or the finger is within 50 px of the edge, and keeps it in range |
| Forecast.RequestCoordinates | app/src/main/java/com/example/weatherapp/DailyWeather.kt:64-65 | the location's coordinates when present, (32.6311553, 51.64102) when absent |
| Forecast.NoonEntries | app/src/main/java/com/example/weatherapp/DailyWeather.kt:68-70 | never longer than the input; an entry is kept iff it is in the input and its timestamp contains "12:00:00" |
| Forecast.NoonEntriesOfConcat | app/src/main/java/com/example/weatherapp/DailyWeather.kt:68-70 | filtering distributes over concatenation, so kept entries stay in their original order |
| Forecast.NoonEntriesFixedPoint | app/src/main/java/com/example/weatherapp/DailyWeather.kt:68-70 | the filter leaves a list unchanged iff every entry is a noon entry |
| Forecast.NoonEntriesIdempotent | app/src/main/java/com/example/weatherapp/DailyWeather.kt:68-70 | filtering the filtered list returns it unchanged |
| Forecast.DailyFetch | app/src/main/java/com/example/weatherapp/DailyWeather.kt:59-73 | after a reply the list is the reply's noon entries in the reply's order, holds exactly those entries and is no longer than the reply; after an exception the previous list is kept |
| Forecast.DailyHoldsOnlyNoon | app/src/main/java/com/example/weatherapp/DailyWeather.kt:59-73 | starting from the empty list, the five-day list only ever holds noon entries |
| Forecast.DayLabels | app/src/main/java/com/example/weatherapp/DailyWeather.kt:53-57 | exactly five labels, "Tomorrow" first, then the weekdays two to five days ahead |
| Forecast.DayAfter | app/src/main/java/com/example/weatherapp/DailyWeather.kt:54 | the weekday n days later is n steps further round the seven-day week |
| Forecast.DateKey | app/src/main/java/com/example/weatherapp/DailyWeather.kt:84 | the first ten characters of the timestamp; absent when it is shorter |
| Forecast.TimestampRoundTrip | app/src/main/java/com/example/weatherapp/DailyWeather.kt:84 | a timestamp built from a date and a time gives back the date and the "HH:MM" it was built from |
| Forecast.NoonMeansTwelveOClock | app/src/main/java/com/example/weatherapp/DailyWeather.kt:69 | in a well-formed timestamp "12:00:00" occurs iff the time of day is 12:00:00 |
| Forecast.NoonEntryShowsNoon | app/src/main/java/com/example/weatherapp/HourlyWeather.kt:80 | a well-formed noon entry shows "12:00" as its hour |
| Forecast.HourLabels | app/src/main/java/com/example/weatherapp/HourlyWeather.kt:46 | exactly five labels, each an hour in [0, 23] |
| Forecast.HourLabelsStepByThree | app/src/main/java/com/example/weatherapp/HourlyWeather.kt:46 | the first label is three hours after the current hour and each next one three hours later, wrapping at 24 |
| Forecast.FirstEight | app/src/main/java/com/example/weatherapp/HourlyWeather.kt:57 | present iff the list has at least eight entries, and then exactly its first eight in order |
| Forecast.HourlyFetch | app/src/main/java/com/example/weatherapp/HourlyWeather.kt:48-61 | the reply's first eight entries in order; the previous list after an exception or a reply of fewer than eight |
| Forecast.HourlyHoldsNoneOrEight | app/src/main/java/com/example/weatherapp/HourlyWeather.kt:48-61 | starting from the empty list, the hourly row holds zero or exactly eight entries |
| Forecast.HourText | app/src/main/java/com/example/weatherapp/HourlyWeather.kt:80 | characters 11 to 15 of the timestamp; absent when it is shorter than 16 |

## Left out

- Rendering, layout, colours, focus handling, the social-login buttons (browser intents) and `BackHandler` plumbing
  are not modelled. They hold no decisions beyond the callbacks the events model.
- The e-mail address pattern (`Patterns.EMAIL_ADDRESS`) is a platform regular expression. It is the parameter
  `isEmail` of the submit functions.
- PasswordPolicy.ValidatePassword: the uppercase, lowercase and digit checks use ASCII letters and digits only. The
  code uses Unicode character classes.
- PasswordPolicy.ValidatePassword: the length rule counts Dafny characters (Unicode scalar values). The code counts
  UTF-16 code units, so the two differ only for characters outside the Basic Multilingual Plane.
- Text.ToUpper: maps only the ASCII letters a-z. Kotlin's `Char.uppercase()` covers all of Unicode.
- App.DisplayName: uppercasing the first letter is ASCII only. The code uses Unicode uppercasing, which can lengthen
  the string (for example, "ß" becomes "SS").
- PasswordPolicy.StrengthMeter: the fraction is a real, not a 32-bit float. It only takes the six values k/5, and
  0.4 < 0.6 <= 0.6 holds in both.
- The drawer offset is a real, not a float. The spring animation's transient overshoot past the target is not
  modelled, only the value it settles on. Pointer-event consumption and the ordering of the two nested drag handlers
  are also left out.
- App.EdgeDragOpensDrawerWhenLoggedOut: touch slop is not modelled. Compose reports a drag only once the finger has
  moved past the slop (about 8 dp) and then drops that distance, so the drawer trails the finger. On a device the
  widest drawer a swipe can open is therefore about 10 x (50 px - slop), below the 500 px of the model.
- App.EdgeSwipeLeavesWideDrawerClosed: finger positions are taken to be non-negative, since the handler's box fills
  the screen. A swipe is a sequence of positions, so pointer slop and touch-sampling rate are not modelled.
- The welcome banner's progress-bar animation curve is not modelled. Only its 5000 ms length and its removal are.
- Coroutine dispatch is not modelled. Each request is a submit step followed by a resolve step. Replies that arrive
  after their screen has been left are cancelled with the screen's scope, so `App.Step` ignores an auth success
  while the weather screen is shown.
- The JSON parsing of the login error body is given as its result (`Login.ErrorBody`). The network clients, service
  interfaces, the response classes beyond the fields used, and the API key are not modelled.
- The activity's `userToken` variable is never assigned by the code, so the token stops at the login outcome.
- TodayWeather.kt, Header.kt and util/LocationHelper.kt are not part of this model. The header's two callbacks are
  the `HeaderSignUp` and `HeaderLogin` events, and the location is an optional input.
- Weekday names are English (`Forecast.DayName`). The code uses the device locale. Parsing the date key into a
  `LocalDate`, temperature rounding and the placeholder hourly data are not modelled.
- A timestamp shorter than the substring bounds makes the code throw while drawing. The model returns `None` there.
- The system back gesture on the weather screen leaves the activity, so `App.Step` keeps the state unchanged for it.

## Findings

| source | as written | input that shows it | evidently intended | confidence | as-written member | corrected member |
|---|---|---|---|---|---|---|
| app/src/main/java/com/example/weatherapp/Login.kt:203 | the success callback reads the `email` state when the reply arrives; the fields stay editable while loading | submit "ann@x.io" with a password, change the e-mail field to "bob@y.io" while the request is in flight, reply with a token: the user "Bob" is signed in with Ann's token | the callback receives the e-mail that was sent with the request | medium, not executed | Login.ResolveAsWritten (witnesses Login.EditedEmailReachesCallback and Login.ResolveAsWrittenUsesFieldEmail) | Login.Resolve |

=== FILE: app.dfy ===
/**
 * The main activity: which of the three screens is shown, the signed-in
 * user's display name, the welcome banner, the logout dialog and the menu
 * drawer, all changed by one event at a time.
 */
module App {
  import opened Optional
  import opened Text
  import Drawer

  datatype Screen = Weather | Login | Signup

  /** How long the welcome banner's countdown runs, in milliseconds. */
  const WelcomeDurationMs: nat := 5000

  /** The welcome banner: its text and how far its countdown has run. */
  datatype Banner = Banner(text: string, elapsedMs: nat)

  datatype App = App(
    screen: Screen,
    currentUser: Option<string>,
    welcome: Option<Banner>,
    showLogoutDialog: bool,
    drawer: Drawer.Drawer)

  /** The activity's state when it starts, for a drawer `width` pixels wide. */
  function Start(width: real): (a: App)
    requires width > 0.0
    ensures a.screen == Weather && a.currentUser.None? && a.welcome.None? && !a.showLogoutDialog
    ensures Valid(a) && !Drawer.Visible(a.drawer)
  {
    App(Weather, None, None, false, Drawer.Closed(width))
  }

  predicate Valid(a: App) {
    Drawer.Valid(a.drawer)
  }

  datatype Event =
    | HeaderSignUp                       // "Sign up" in the weather screen's header (logged out)
    | HeaderLogin                        // "Login" in the weather screen's header (logged out)
    | CreateAccount                      // "Create new account" on the login screen
    | AlreadyHaveAccount                 // "Already have an account" on the sign-up screen
    | Back                               // the system back gesture on the login or sign-up screen
    | AuthSucceeded(email: string)       // the login or sign-up screen reports success
    | BannerTap
    | Tick(ms: nat)                      // time passing for the banner's countdown
    | MenuIcon                           // the menu icon on the weather screen (logged in)
    | ScreenDragStart(x: real)
    | ScreenDrag(x: real, amount: real)
    | ScreenDragEnd                      // a drag over the screen ends or is cancelled
    | DrawerDrag(amount: real)
    | DrawerDragEnd
    | OverlayTap                         // the shade behind a visible drawer
    | CloseMenuIcon                      // the menu icon inside a visible drawer
    | LogoutTap                          // "Logout" inside a visible drawer
    | ConfirmLogout
    | DismissLogout                      // "No", or dismissing the dialog

  /** The user name shown after signing in: the e-mail before its first '@', first letter capitalised. */
  function DisplayName(email: string): (name: string)
    ensures '@' !in name
    ensures |name| <= |email|
    ensures |name| > 0 ==> name[1..] == email[1..|name|] && name[0] == ToUpper(email[0])
    ensures |name| < |email| ==> email[|name|] == '@'
  {
    Capitalize(SubstringBefore(email, '@'))
  }

  /** An address splits back into its local part: the display name is that part, capitalised. */
  lemma DisplayNameOfAddress(local: string, domain: string)
    requires '@' !in local
    ensures DisplayName(local + "@" + domain) == Capitalize(local)
  {
    var s := local + "@" + domain;
    var before := SubstringBefore(s, '@');
    assert s[..|local|] == local && s[|local|] == '@';
    assert forall i :: 0 <= i < |local| ==> s[i] == local[i] && s[i] != '@';
    assert forall i :: 0 <= i < |before| ==> before[i] == s[i];
  }

  /** The greeting's fixed opening. */
  const WelcomePrefix := "Welcome, Dear "

  /** The banner's text: the fixed greeting followed by the user's name. */
  function WelcomeText(name: string): (m: string)
    ensures |m| == |WelcomePrefix| + |name|
    ensures m[..|WelcomePrefix|] == WelcomePrefix && m[|WelcomePrefix|..] == name
  {
    WelcomePrefix + name
  }

  /** The screens one navigation step may connect. */
  predicate Edge(from: Screen, to: Screen) {
    || (from == Weather && (to == Login || to == Signup))
    || (from == Login && (to == Weather || to == Signup))
    || (from == Signup && (to == Weather || to == Login))
  }

  /** Showing a (possibly unchanged) welcome text: the countdown restarts only when the text changes. */
  function Welcome(current: Option<Banner>, text: string): (b: Option<Banner>)
    ensures b.Some? && b.value.text == text
    ensures current.Some? && current.value.text == text ==> b == current
    ensures !(current.Some? && current.value.text == text) ==> b.value.elapsedMs == 0
  {
    if current.Some? && current.value.text == text then current else Some(Banner(text, 0))
  }

  /** The countdown advancing; the banner goes away once it has run its full length. */
  function Countdown(current: Option<Banner>, ms: nat): (b: Option<Banner>)
    ensures current.None? ==> b.None?
    ensures current.Some? && current.value.elapsedMs + ms >= WelcomeDurationMs ==> b.None?
    ensures current.Some? && current.value.elapsedMs + ms < WelcomeDurationMs ==>
      b == Some(Banner(current.value.text, current.value.elapsedMs + ms))
  {
    match current
    case None => None
    case Some(Banner(text, elapsed)) =>
      if elapsed + ms >= WelcomeDurationMs then None else Some(Banner(text, elapsed + ms))
  }

  /** One event; events the current state offers no control for change nothing. */
  function Step(a: App, e: Event): (r: App)
    requires Valid(a)
    ensures Valid(r) && r.drawer.width == a.drawer.width
    ensures r.screen != a.screen ==> Edge(a.screen, r.screen)
    ensures r.currentUser != a.currentUser ==>
      || (e.AuthSucceeded? && r.currentUser == Some(DisplayName(e.email)))
      || (e.ConfirmLogout? && r.currentUser.None?)
    ensures r.showLogoutDialog && !a.showLogoutDialog ==> e.LogoutTap? && Drawer.Visible(a.drawer)
  {
    match e
    case HeaderSignUp =>
      if a.screen == Weather && a.currentUser.None? then a.(screen := Signup) else a
    case HeaderLogin =>
      if a.screen == Weather && a.currentUser.None? then a.(screen := Login) else a
    case CreateAccount =>
      if a.screen == Login then a.(screen := Signup) else a
    case AlreadyHaveAccount =>
      if a.screen == Signup then a.(screen := Login) else a
    case Back =>
      if a.screen != Weather then a.(screen := Weather) else a
    case AuthSucceeded(email) =>
      if a.screen != Weather then
        var name := DisplayName(email);
        a.(currentUser := Some(name), welcome := Welcome(a.welcome, WelcomeText(name)), screen := Weather)
      else a
    case BannerTap =>
      a.(welcome := None)
    case Tick(ms) =>
      a.(welcome := Countdown(a.welcome, ms))
    case MenuIcon =>
      if a.screen == Weather && a.currentUser.Some? then a.(drawer := Drawer.Toggle(a.drawer)) else a
    case ScreenDragStart(x) =>
      a.(drawer := Drawer.EdgeDragStart(a.drawer, x))
    case ScreenDrag(x, amount) =>
      a.(drawer := Drawer.ScreenDrag(a.drawer, x, amount))
    case ScreenDragEnd =>
      a.(drawer := Drawer.Snap(a.drawer))
    case DrawerDrag(amount) =>
      if Drawer.OnScreen(a.drawer) then a.(drawer := Drawer.DragBy(a.drawer, amount)) else a
    case DrawerDragEnd =>
      a.(drawer := Drawer.Snap(a.drawer))
    case OverlayTap =>
      if Drawer.Visible(a.drawer) then a.(drawer := Drawer.Close(a.drawer)) else a
    case CloseMenuIcon =>
      if Drawer.Visible(a.drawer) then a.(drawer := Drawer.Close(a.drawer)) else a
    case LogoutTap =>
      if Drawer.Visible(a.drawer) then a.(showLogoutDialog := true) else a
    case ConfirmLogout =>
      if a.showLogoutDialog then
        a.(currentUser := None, drawer := Drawer.Close(a.drawer), showLogoutDialog := false)
      else a
    case DismissLogout =>
      a.(showLogoutDialog := false)
  }

  /** The control that takes each navigation edge. */
  function NavigationEvent(from: Screen, to: Screen): Event
    requires Edge(from, to)
  {
    match (from, to)
    case (Weather, Signup) => HeaderSignUp
    case (Weather, Login) => HeaderLogin
    case (Login, Signup) => CreateAccount
    case (Signup, Login) => AlreadyHaveAccount
    case (_, Weather) => Back
  }

  /** Every navigation edge is taken by its control (from the weather screen, while logged out). */
  lemma EveryEdgeIsTaken(a: App, to: Screen)
    requires Valid(a) && Edge(a.screen, to) && a.currentUser.None?
    ensures Step(a, NavigationEvent(a.screen, to)).screen == to
  {
  }

  /** Only the header's two buttons leave the weather screen, and only while logged out. */
  lemma LeavingWeatherNeedsLoggedOut(a: App, e: Event)
    requires Valid(a) && a.screen == Weather && Step(a, e).screen != Weather
    ensures a.currentUser.None? && (e.HeaderSignUp? || e.HeaderLogin?)
  {
  }

  /**
   * A successful login or sign-up shows the weather screen, signs in the
   * e-mail's local part as the user, and greets them.
   */
  lemma AuthSuccessSignsIn(a: App, local: string, domain: string)
    requires Valid(a) && a.screen != Weather && '@' !in local
    ensures Step(a, AuthSucceeded(local + "@" + domain)).screen == Weather
    ensures Step(a, AuthSucceeded(local + "@" + domain)).currentUser == Some(Capitalize(local))
    ensures Step(a, AuthSucceeded(local + "@" + domain)).welcome.value.text == "Welcome, Dear " + Capitalize(local)
  {
    DisplayNameOfAddress(local, domain);
  }

  /** A fresh greeting disappears once 5000 ms have passed, or at once on a tap. */
  lemma GreetingExpires(a: App, email: string)
    requires Valid(a) && a.screen != Weather && a.welcome.None?
    ensures Step(a, AuthSucceeded(email)).welcome.Some?
    ensures Step(a, AuthSucceeded(email)).welcome.value.elapsedMs == 0
    ensures Step(Step(a, AuthSucceeded(email)), Tick(WelcomeDurationMs - 1)).welcome.Some?
    ensures Step(Step(a, AuthSucceeded(email)), Tick(WelcomeDurationMs)).welcome.None?
    ensures Step(Step(a, AuthSucceeded(email)), BannerTap).welcome.None?
  {
  }

  /** Confirming logout signs the user out and closes the dialog and the drawer; the screen stays. */
  lemma ConfirmLogoutSignsOut(a: App)
    requires Valid(a) && a.showLogoutDialog
    ensures Step(a, ConfirmLogout).currentUser.None?
    ensures !Step(a, ConfirmLogout).showLogoutDialog
    ensures !Drawer.Visible(Step(a, ConfirmLogout).drawer)
    ensures Step(a, ConfirmLogout).screen == a.screen
  {
  }

  /** Dismissing the dialog only closes it. */
  lemma DismissLogoutOnlyCloses(a: App)
    requires Valid(a)
    ensures Step(a, DismissLogout) == a.(showLogoutDialog := false)
  {
  }

  /** The menu icon of a signed-in user opens a hidden drawer and closes a visible one. */
  lemma MenuIconToggles(a: App)
    requires Valid(a) && a.screen == Weather && a.currentUser.Some?
    ensures Drawer.Visible(Step(a, MenuIcon).drawer) <==> !Drawer.Visible(a.drawer)
  {
  }

  /** Screen drag events for the finger moving through `xs` from `prev`, each with its distance from the position before. */
  function DragThrough(a: App, prev: real, xs: seq<real>): (r: App)
    requires Valid(a)
    ensures r == a.(drawer := Drawer.FollowFinger(a.drawer, prev, xs))
    decreases |xs|
  {
    if xs == [] then a else DragThrough(Step(a, ScreenDrag(xs[0], xs[0] - prev)), xs[0], xs[1..])
  }

  /**
   * A whole drag over the screen: put down at `start`, moved through `xs`,
   * lifted. Only the drawer changes, whichever screen is shown and whether or
   * not anyone is signed in.
   */
  function EdgeSwipe(a: App, start: real, xs: seq<real>): (r: App)
    requires Valid(a)
    ensures r == a.(drawer := Drawer.EdgeGesture(a.drawer, start, xs))
  {
    Step(DragThrough(Step(a, ScreenDragStart(start)), start, xs), ScreenDragEnd)
  }

  /**
   * The screen-wide drag handler ignores the user: from the start state, an
   * edge swipe opens a drawer narrower than 500 pixels, with its "Logout"
   * entry, for a user who is not signed in.
   */
  lemma EdgeDragOpensDrawerWhenLoggedOut(width: real)
    requires 0.0 < width < 10.0 * Drawer.EdgeZone
    ensures
      var x := Drawer.EdgeZone / 2.0 + width / 20.0;
      var a := EdgeSwipe(Start(width), 0.0, [x, x + width]);
      a.currentUser.None? && a.screen == Weather && a.drawer.offset == 0.0 && Drawer.Visible(a.drawer)
  {
    Drawer.NarrowDrawerOpensByEdgeGesture(Start(width).drawer);
  }

  /** A closed drawer 500 pixels or wider stays closed after any swipe over the screen. */
  lemma EdgeSwipeLeavesWideDrawerClosed(a: App, start: real, xs: seq<real>)
    requires Valid(a) && a.drawer.width >= 10.0 * Drawer.EdgeZone && a.drawer.offset == -a.drawer.width
    requires start >= 0.0 && forall i :: 0 <= i < |xs| ==> xs[i] >= 0.0
    ensures EdgeSwipe(a, start, xs) == a
  {
    Drawer.WideDrawerIgnoresEdgeGesture(a.drawer, start, xs);
  }

  /**
   * Tapping the shade closes a visible drawer and changes nothing else; while
   * the drawer is hidden the shade cannot be tapped.
   */
  lemma OverlayTapClosesVisibleDrawer(a: App)
    requires Valid(a)
    ensures Drawer.Visible(a.drawer) ==> Step(a, OverlayTap) == a.(drawer := Drawer.Close(a.drawer))
    ensures !Drawer.Visible(Step(a, OverlayTap).drawer)
    ensures !Drawer.Visible(a.drawer) ==> Step(a, OverlayTap) == a
  {
  }

  /** A fully closed drawer lies off screen, so its own drag handler cannot move it. */
  lemma ClosedDrawerIgnoresDrawerDrag(a: App, amount: real)
    requires Valid(a) && a.drawer.offset == -a.drawer.width
    ensures Step(a, DrawerDrag(amount)) == a
  {
  }
}

=== FILE: drawer.dfy ===
/**
 * The slide-in menu of the main activity: a horizontal offset between
 * fully closed (minus the drawer's width) and fully open (zero), moved by
 * drags, snapped at the end of a gesture, and toggled by the menu icon.
 * Animations are represented by the value they settle on.
 */
module Drawer {
  import opened Ranges

  /** The drawer's width in pixels and its current offset. */
  datatype Drawer = Drawer(width: real, offset: real)

  /** Touches closer than this to the left edge may open the drawer. */
  const EdgeZone: real := 50.0

  /** The width is positive and the offset lies between closed and open. */
  predicate Valid(d: Drawer) {
    d.width > 0.0 && -d.width <= d.offset <= 0.0
  }

  /** The drawer as the activity starts: closed. */
  function Closed(width: real): (d: Drawer)
    requires width > 0.0
    ensures Valid(d) && !Visible(d)
  {
    Drawer(width, -width)
  }

  /** The drawer counts as visible once it is more than a tenth of its width open. */
  function Visible(d: Drawer): (b: bool)
    ensures b <==> d.offset + d.width > d.width / 10.0
    ensures Valid(d) && d.offset == 0.0 ==> b
    ensures d.width > 0.0 && d.offset == -d.width ==> !b
  {
    d.offset > -d.width + d.width * 0.1
  }

  /** Some part of the drawer is on screen, where its own drag handler can be touched. */
  predicate OnScreen(d: Drawer) {
    d.offset > -d.width
  }

  /** Moving the drawer towards a target, which is first clamped to the allowed range. */
  function MoveTo(d: Drawer, target: real): (e: Drawer)
    requires d.width > 0.0
    ensures Valid(e) && e.width == d.width
    ensures -d.width <= target <= 0.0 ==> e.offset == target
  {
    d.(offset := CoerceIn(target, -d.width, 0.0))
  }

  function Open(d: Drawer): (e: Drawer)
    requires d.width > 0.0
    ensures Valid(e) && Visible(e) && e.offset == 0.0
  {
    MoveTo(d, 0.0)
  }

  function Close(d: Drawer): (e: Drawer)
    requires d.width > 0.0
    ensures Valid(e) && !Visible(e) && e.offset == -d.width
  {
    MoveTo(d, -d.width)
  }

  /** The menu icon: a visible drawer closes, any other opens. */
  function Toggle(d: Drawer): (e: Drawer)
    requires d.width > 0.0
    ensures Valid(e)
    ensures Visible(d) ==> !Visible(e) && e.offset == -d.width
    ensures !Visible(d) ==> Visible(e) && e.offset == 0.0
  {
    MoveTo(d, if Visible(d) then -d.width else 0.0)
  }

  /** Two toggles bring a settled drawer back where it was. */
  lemma ToggleTwiceRestoresSettled(d: Drawer)
    requires d.width > 0.0 && (d.offset == 0.0 || d.offset == -d.width)
    ensures Toggle(Toggle(d)) == d
  {
  }

  /** Opening the drawer to a position given as a distance from the left edge, clamped to the width. */
  function OpenPartially(d: Drawer, x: real): (e: Drawer)
    requires d.width > 0.0
    ensures Valid(e) && e.width == d.width
    ensures 0.0 <= x <= d.width ==> e.offset == x - d.width
    ensures x <= 0.0 ==> e.offset == -d.width
    ensures x >= d.width ==> e.offset == 0.0
  {
    var normalized := CoerceIn(x / d.width, 0.0, 1.0);
    d.(offset := -d.width + normalized * d.width)
  }

  /** A drag moves the drawer by the drag amount, clamped to the allowed range. */
  function DragBy(d: Drawer, amount: real): (e: Drawer)
    requires d.width > 0.0
    ensures Valid(e) && e.width == d.width
    ensures -d.width <= d.offset + amount <= 0.0 ==> e.offset == d.offset + amount
    ensures d.offset + amount > 0.0 ==> e.offset == 0.0
    ensures d.offset + amount < -d.width ==> e.offset == -d.width
  {
    d.(offset := CoerceIn(d.offset + amount, -d.width, 0.0))
  }

  /** At the end of a gesture: fully open when past the halfway point, fully closed otherwise. */
  function Snap(d: Drawer): (e: Drawer)
    requires d.width > 0.0
    ensures Valid(e) && e.width == d.width
    ensures e.offset == 0.0 || e.offset == -d.width
    ensures e.offset == 0.0 <==> d.offset > -d.width / 2.0
    ensures Visible(e) <==> d.offset > -d.width / 2.0
  {
    if d.offset > -d.width / 2.0 then Open(d) else Close(d)
  }

  /** Snapping a snapped drawer changes nothing. */
  lemma SnapIdempotent(d: Drawer)
    requires d.width > 0.0
    ensures Snap(Snap(d)) == Snap(d)
  {
  }

  /** A drawer open more than halfway is visible, so a snap never hides a drawer that was more than half open. */
  lemma HalfOpenIsVisible(d: Drawer)
    requires d.width > 0.0 && d.offset > -d.width / 2.0
    ensures Visible(d)
  {
  }

  /** A drag starting at the left edge of a hidden drawer puts it at the closed position, ready to follow the finger. */
  function EdgeDragStart(d: Drawer, x: real): (e: Drawer)
    requires d.width > 0.0
    ensures Valid(d) ==> Valid(e)
    ensures x < EdgeZone && !Visible(d) ==> e.offset == -d.width
    ensures !(x < EdgeZone && !Visible(d)) ==> e == d
  {
    if x < EdgeZone && !Visible(d) then OpenPartially(d, 0.0) else d
  }

  /** A drag over the screen moves the drawer only when it is visible or the finger is at the left edge. */
  function ScreenDrag(d: Drawer, x: real, amount: real): (e: Drawer)
    requires d.width > 0.0
    ensures Valid(d) ==> Valid(e)
    ensures Visible(d) || x < EdgeZone ==> e == DragBy(d, amount)
    ensures !(Visible(d) || x < EdgeZone) ==> e == d
  {
    if Visible(d) || x < EdgeZone then DragBy(d, amount) else d
  }

  /**
   * The finger moving over the screen through the positions `xs`, starting
   * at `prev`: each move reports where the finger is and how far it went
   * since the position before.
   */
  function FollowFinger(d: Drawer, prev: real, xs: seq<real>): (e: Drawer)
    requires d.width > 0.0
    ensures e.width == d.width
    ensures Valid(d) ==> Valid(e)
    decreases |xs|
  {
    if xs == [] then d else FollowFinger(ScreenDrag(d, xs[0], xs[0] - prev), xs[0], xs[1..])
  }

  /** A whole drag over the screen: put down at `start`, moved through `xs`, then lifted. */
  function EdgeGesture(d: Drawer, start: real, xs: seq<real>): (e: Drawer)
    requires d.width > 0.0
    ensures Valid(e) && e.width == d.width
    ensures e.offset == 0.0 || e.offset == -d.width
  {
    Snap(FollowFinger(EdgeDragStart(d, start), start, xs))
  }

  /**
   * While a drawer at least ten times the edge zone wide stays hidden, it is
   * open by no more than the finger's distance from the left edge, and by
   * less than the edge zone.
   */
  lemma {:induction false} FollowFingerStaysNearEdge(d: Drawer, prev: real, xs: seq<real>)
    requires Valid(d) && d.width >= 10.0 * EdgeZone
    requires d.offset + d.width <= prev && d.offset + d.width <= EdgeZone
    requires forall i :: 0 <= i < |xs| ==> xs[i] >= 0.0
    ensures FollowFinger(d, prev, xs).offset + d.width <= EdgeZone
    decreases |xs|
  {
    if xs != [] {
      assert !Visible(d);
      var next := ScreenDrag(d, xs[0], xs[0] - prev);
      assert next.offset + d.width <= xs[0] && next.offset + d.width <= EdgeZone by {
        if xs[0] < EdgeZone {
          assert next == DragBy(d, xs[0] - prev);
        } else {
          assert next == d;
        }
      }
      assert forall i :: 0 <= i < |xs[1..]| ==> xs[1..][i] == xs[i + 1];
      FollowFingerStaysNearEdge(next, xs[0], xs[1..]);
    }
  }

  /**
   * A closed drawer at least 500 pixels wide cannot be opened by dragging
   * from the screen: it is followed only while the finger is within the edge
   * zone, which never uncovers a tenth of its width.
   */
  lemma WideDrawerIgnoresEdgeGesture(d: Drawer, start: real, xs: seq<real>)
    requires Valid(d) && d.width >= 10.0 * EdgeZone && d.offset == -d.width
    requires start >= 0.0 && forall i :: 0 <= i < |xs| ==> xs[i] >= 0.0
    ensures EdgeGesture(d, start, xs).offset == -d.width
  {
    var first := EdgeDragStart(d, start);
    assert first.offset == -d.width;
    FollowFingerStaysNearEdge(first, start, xs);
  }

  /**
   * A closed drawer narrower than 500 pixels opens from a drag that starts at
   * the left edge, pauses just inside the edge zone, where a tenth of the
   * drawer is already uncovered, and then sweeps right by the drawer's width.
   */
  lemma NarrowDrawerOpensByEdgeGesture(d: Drawer)
    requires Valid(d) && d.width < 10.0 * EdgeZone && d.offset == -d.width
    ensures var x := EdgeZone / 2.0 + d.width / 20.0; EdgeGesture(d, 0.0, [x, x + d.width]).offset == 0.0
  {
    var x := EdgeZone / 2.0 + d.width / 20.0;
    var first := EdgeDragStart(d, 0.0);
    assert first.offset == -d.width;
    var second := ScreenDrag(first, x, x - 0.0);
    assert second == DragBy(first, x);
    assert Visible(second);
    var third := ScreenDrag(second, x + d.width, x + d.width - x);
    assert third.offset == 0.0;
    assert [x, x + d.width][1..] == [x + d.width];
    assert FollowFinger(first, 0.0, [x, x + d.width]) == FollowFinger(second, x, [x + d.width]);
    assert [x + d.width][1..] == [];
    assert FollowFinger(second, x, [x + d.width]) == FollowFinger(third, x + d.width, []);
  }
}

=== FILE: forecast.dfy ===
/**
 * The forecast panels: which coordinates the request uses, the noon entries
 * kept for the five-day list, the first eight entries kept for the hourly
 * row, and the labels and timestamp pieces they display.
 */
module Forecast {
  import opened Optional
  import opened Text

  datatype Location = Location(latitude: real, longitude: real)

  /** The coordinates used when the device reports no location. */
  const FallbackLatitude: real := 32.6311553
  const FallbackLongitude: real := 51.64102

  /** The coordinates a forecast request is sent for. */
  function RequestCoordinates(location: Option<Location>): (c: Location)
    ensures location.Some? ==> c == location.value
    ensures location.None? ==> c == Location(FallbackLatitude, FallbackLongitude)
  {
    location.GetOr(Location(FallbackLatitude, FallbackLongitude))
  }

  /** One entry of the three-hourly forecast, by its "YYYY-MM-DD HH:MM:SS" timestamp. */
  datatype ForecastEntry = ForecastEntry(dtTxt: string)

  /** What a forecast request yields: the entry list, or an exception (which is only logged). */
  datatype FetchResult = Fetched(list: seq<ForecastEntry>) | FetchFailed

  const NoonMarker := "12:00:00"

  predicate IsNoon(e: ForecastEntry) {
    Contains(e.dtTxt, NoonMarker)
  }

  /** The entries whose timestamp contains "12:00:00", in their original order. */
  function NoonEntries(xs: seq<ForecastEntry>): (ys: seq<ForecastEntry>)
    ensures |ys| <= |xs|
    ensures forall e :: e in ys <==> e in xs && IsNoon(e)
  {
    if xs == [] then []
    else if IsNoon(xs[0]) then [xs[0]] + NoonEntries(xs[1..])
    else NoonEntries(xs[1..])
  }

  /** Filtering a concatenation filters each part: the kept entries keep their relative order. */
  lemma {:induction false} NoonEntriesOfConcat(xs: seq<ForecastEntry>, ys: seq<ForecastEntry>)
    ensures NoonEntries(xs + ys) == NoonEntries(xs) + NoonEntries(ys)
  {
    if xs == [] {
      assert xs + ys == ys;
    } else {
      assert (xs + ys)[0] == xs[0];
      assert (xs + ys)[1..] == xs[1..] + ys;
      NoonEntriesOfConcat(xs[1..], ys);
    }
  }

  /** The filter keeps a list unchanged exactly when all of its entries are noon entries. */
  lemma {:induction false} NoonEntriesFixedPoint(xs: seq<ForecastEntry>)
    ensures NoonEntries(xs) == xs <==> forall i :: 0 <= i < |xs| ==> IsNoon(xs[i])
  {
    if xs != [] {
      var t := xs[1..];
      NoonEntriesFixedPoint(t);
      assert xs == [xs[0]] + t;
      if IsNoon(xs[0]) {
        assert NoonEntries(xs) == [xs[0]] + NoonEntries(t);
        assert NoonEntries(xs) == xs <==> NoonEntries(t) == t;
        assert (forall i :: 0 <= i < |xs| ==> IsNoon(xs[i])) <==> (forall i :: 0 <= i < |t| ==> IsNoon(t[i])) by {
          assert forall i :: 0 <= i < |t| ==> t[i] == xs[i + 1];
        }
      } else {
        assert |NoonEntries(xs)| <= |t| < |xs|;
      }
    }
  }

  /** Filtering twice is filtering once. */
  lemma NoonEntriesIdempotent(xs: seq<ForecastEntry>)
    ensures NoonEntries(NoonEntries(xs)) == NoonEntries(xs)
  {
  }

  /**
   * The five-day list after a request: the noon entries of the reply, in the
   * reply's order, or the list held before when the request throws.
   */
  function DailyFetch(prior: seq<ForecastEntry>, r: FetchResult): (list: seq<ForecastEntry>)
    ensures r.FetchFailed? ==> list == prior
    ensures r.Fetched? ==> |list| <= |r.list| && (forall e :: e in list <==> e in r.list && IsNoon(e))
    ensures r.Fetched? ==> list == NoonEntries(r.list)
  {
    match r
    case Fetched(entries) => NoonEntries(entries)
    case FetchFailed => prior
  }

  /** Starting from the empty list, the five-day list only ever holds noon entries. */
  lemma DailyHoldsOnlyNoon(prior: seq<ForecastEntry>, r: FetchResult)
    requires forall e :: e in prior ==> IsNoon(e)
    ensures forall e :: e in DailyFetch(prior, r) ==> IsNoon(e)
  {
  }

  datatype DayOfWeek = Monday | Tuesday | Wednesday | Thursday | Friday | Saturday | Sunday

  function DayNumber(d: DayOfWeek): (n: nat)
    ensures n < 7
  {
    match d
    case Monday => 0 case Tuesday => 1 case Wednesday => 2 case Thursday => 3
    case Friday => 4 case Saturday => 5 case Sunday => 6
  }

  function DayOfNumber(n: nat): (d: DayOfWeek)
    requires n < 7
    ensures DayNumber(d) == n
  {
    [Monday, Tuesday, Wednesday, Thursday, Friday, Saturday, Sunday][n]
  }

  /** The weekday `n` days after `d`. */
  function DayAfter(d: DayOfWeek, n: nat): (e: DayOfWeek)
    ensures DayNumber(e) == (DayNumber(d) + n) % 7
  {
    DayOfNumber((DayNumber(d) + n) % 7)
  }

  /** The full English display name of a weekday. */
  function DayName(d: DayOfWeek): string {
    match d
    case Monday => "Monday" case Tuesday => "Tuesday" case Wednesday => "Wednesday"
    case Thursday => "Thursday" case Friday => "Friday" case Saturday => "Saturday" case Sunday => "Sunday"
  }

  /** The five day labels: "Tomorrow", then the names of the four days after it. */
  function DayLabels(today: DayOfWeek): (labels: seq<string>)
    ensures |labels| == 5 && labels[0] == "Tomorrow"
    ensures forall k :: 1 <= k < 5 ==> labels[k] == DayName(DayAfter(today, k + 1))
  {
    seq(5, k requires 0 <= k < 5 => if k == 0 then "Tomorrow" else DayName(DayAfter(today, k + 1)))
  }

  /** The date part of a timestamp, its first ten characters (absent when too short, where the code throws). */
  function DateKey(dtTxt: string): (d: Option<string>)
    ensures d.Some? <==> |dtTxt| >= 10
    ensures d.Some? ==> d.value == dtTxt[..10]
  {
    Substring(dtTxt, 0, 10)
  }

  /** The "HH:MM" shown on an hourly card, characters 11 to 15 (absent when too short, where the code throws). */
  function HourText(dtTxt: string): (h: Option<string>)
    ensures h.Some? <==> |dtTxt| >= 16
    ensures h.Some? ==> h.value == dtTxt[11..16]
  {
    Substring(dtTxt, 11, 16)
  }

  /** A timestamp shaped "YYYY-MM-DD HH:MM:SS". */
  predicate WellFormedTimestamp(dt: string) {
    && |dt| == 19
    && (forall i :: 0 <= i < 19 && i !in {4, 7, 10, 13, 16} ==> IsDigit(dt[i]))
    && dt[4] == '-' && dt[7] == '-' && dt[10] == ' ' && dt[13] == ':' && dt[16] == ':'
  }

  /** Putting a date and a time together and taking them apart again gives back the date and the hour. */
  lemma TimestampRoundTrip(date: string, hh: string, mm: string, ss: string)
    requires |date| == 10 && |hh| == 2 && |mm| == 2 && |ss| == 2
    ensures DateKey(date + " " + hh + ":" + mm + ":" + ss) == Some(date)
    ensures HourText(date + " " + hh + ":" + mm + ":" + ss) == Some(hh + ":" + mm)
  {
    var dt := date + " " + hh + ":" + mm + ":" + ss;
    assert dt[..10] == date;
    assert dt[11..16] == hh + ":" + mm;
  }

  /** In a well-formed timestamp "12:00:00" can only occur as the time of day. */
  lemma NoonMeansTwelveOClock(dt: string)
    requires WellFormedTimestamp(dt)
    ensures Contains(dt, NoonMarker) <==> dt[11..19] == NoonMarker
  {
    if Contains(dt, NoonMarker) {
      var i :| 0 <= i <= |dt| && OccursAt(dt, NoonMarker, i);
      assert dt[i..i + 8][2] == ':' && dt[i..i + 8][5] == ':';
      assert dt[i + 2] == ':' && dt[i + 5] == ':';
      assert i + 2 == 13 by {
        assert forall k :: 0 <= k < 19 && dt[k] == ':' ==> k == 13 || k == 16;
      }
    } else {
      assert !OccursAt(dt, NoonMarker, 11);
    }
  }

  /** A well-formed noon entry of the five-day list shows "12:00" as its hour. */
  lemma NoonEntryShowsNoon(e: ForecastEntry)
    requires WellFormedTimestamp(e.dtTxt) && IsNoon(e)
    ensures HourText(e.dtTxt) == Some("12:00")
  {
    NoonMeansTwelveOClock(e.dtTxt);
    assert e.dtTxt[11..16] == e.dtTxt[11..19][..5];
    assert NoonMarker[..5] == "12:00";
  }

  /** The hourly row's five labels: 3, 6, 9, 12 and 15 hours after the current hour, on a 24-hour clock. */
  function HourLabels(currentHour: nat): (labels: seq<nat>)
    ensures |labels| == 5
    ensures forall i :: 0 <= i < 5 ==> labels[i] < 24
  {
    seq(5, i requires 0 <= i < 5 => (currentHour + (i + 1) * 3) % 24)
  }

  /** Adding three hours on a 24-hour clock: reducing before or after the addition agrees. */
  lemma AddThreeHours(a: nat)
    ensures (a + 3) % 24 == (a % 24 + 3) % 24
  {
    var q, r := a / 24, a % 24;
    assert a + 3 == 24 * q + (r + 3);
    if r + 3 < 24 {
      assert (a + 3) / 24 == q;
    } else {
      assert (a + 3) / 24 == q + 1;
    }
  }

  /** The labels step by three hours, wrapping at midnight, starting three hours after the current hour. */
  lemma HourLabelsStepByThree(currentHour: nat)
    ensures HourLabels(currentHour)[0] == (currentHour + 3) % 24
    ensures forall i :: 0 <= i < 4 ==> HourLabels(currentHour)[i + 1] == (HourLabels(currentHour)[i] + 3) % 24
  {
    var labels := HourLabels(currentHour);
    forall i | 0 <= i < 4
      ensures labels[i + 1] == (labels[i] + 3) % 24
    {
      AddThreeHours(currentHour + (i + 1) * 3);
      assert currentHour + (i + 2) * 3 == currentHour + (i + 1) * 3 + 3;
    }
  }

  /** How many entries the hourly row shows: the next 24 hours in three-hour steps. */
  const HourlyCount: nat := 8

  /** Kotlin's `subList(0, 8)`, which throws when the list is shorter. */
  function FirstEight(xs: seq<ForecastEntry>): (r: Option<seq<ForecastEntry>>)
    ensures r.Some? <==> |xs| >= HourlyCount
    ensures r.Some? ==> |r.value| == HourlyCount && forall i :: 0 <= i < HourlyCount ==> r.value[i] == xs[i]
  {
    if |xs| >= HourlyCount then Some(xs[..HourlyCount]) else None
  }

  /**
   * The hourly row after a request: the reply's first eight entries, or the
   * list held before when the request throws or the reply is too short.
   */
  function HourlyFetch(prior: seq<ForecastEntry>, r: FetchResult): (list: seq<ForecastEntry>)
    ensures r.FetchFailed? ==> list == prior
    ensures r.Fetched? && |r.list| < HourlyCount ==> list == prior
    ensures r.Fetched? && |r.list| >= HourlyCount ==>
      |list| == HourlyCount && forall i :: 0 <= i < HourlyCount ==> list[i] == r.list[i]
  {
    match r
    case Fetched(entries) => FirstEight(entries).GetOr(prior)
    case FetchFailed => prior
  }

  /** Starting from the empty list, the hourly row holds either nothing or exactly eight entries. */
  lemma HourlyHoldsNoneOrEight(prior: seq<ForecastEntry>, r: FetchResult)
    requires |prior| == 0 || |prior| == HourlyCount
    ensures |HourlyFetch(prior, r)| == 0 || |HourlyFetch(prior, r)| == HourlyCount
  {
  }
}

=== FILE: forms.dfy ===
/**
 * What the login and sign-up screens share: an input field with its inline
 * error, the e-mail check, the request a valid submit issues, and the
 * outcome a finished request hands back to the activity.
 */
module Forms {
  import opened Optional
  import opened Text

  /** One input field: its text, whether it shows an error, and the error text. */
  datatype Field = Field(value: string, isError: bool, errorMessage: string)

  const EmptyField: Field := Field("", false, "")

  /** The error flag is raised exactly when there is an error text to show under the field. */
  predicate Consistent(f: Field) {
    f.isError <==> f.errorMessage != ""
  }

  /** The field displays the result of a check: no error for `None`, the message for `Some`. */
  predicate Shows(f: Field, error: Option<string>) {
    match error
    case None => !f.isError && f.errorMessage == ""
    case Some(m) => f.isError && f.errorMessage == m
  }

  /** Typing into a field: the text is replaced and an error it showed is cleared. */
  function Edit(f: Field, v: string): (g: Field)
    ensures g.value == v && !g.isError
    ensures f.isError ==> g.errorMessage == ""
    ensures !f.isError ==> g.errorMessage == f.errorMessage
    ensures Consistent(f) ==> Consistent(g)
  {
    if f.isError then Field(v, false, "") else f.(value := v)
  }

  /** A submit's verdict on one field: the text stays, the error becomes the check's result. */
  function Judge(f: Field, error: Option<string>): (g: Field)
    requires error != Some("")
    ensures g.value == f.value
    ensures Shows(g, error)
    ensures Consistent(g)
  {
    match error
    case None => Field(f.value, false, "")
    case Some(m) => Field(f.value, true, m)
  }

  const PleaseEnterEmail := "Please enter email"
  const InvalidEmailAddress := "Invalid email address"
  const PleaseEnterPassword := "Please enter password"

  /** The fallback error text of both screens when a reply carries no message of its own. */
  const SignupFailed := "Signup failed"

  /**
   * The e-mail check both screens run on submit. `isEmail` stands for the
   * platform's e-mail address pattern.
   */
  function EmailError(email: string, isEmail: string -> bool): (e: Option<string>)
    ensures e.None? <==> !IsBlank(email) && isEmail(email)
    ensures e == Some(PleaseEnterEmail) <==> IsBlank(email)
    ensures e == Some(InvalidEmailAddress) <==> !IsBlank(email) && !isEmail(email)
  {
    if IsBlank(email) then Some(PleaseEnterEmail)
    else if !isEmail(email) then Some(InvalidEmailAddress)
    else None
  }

  const NetworkErrorPrefix := "Network error: "

  /**
   * The text shown when the request throws: the prefix followed by the
   * exception's localized message, which Kotlin prints as "null" when absent.
   */
  function NetworkError(localizedMessage: Option<string>): (m: string)
    ensures |m| >= |NetworkErrorPrefix| && m[..|NetworkErrorPrefix|] == NetworkErrorPrefix
    ensures localizedMessage.Some? ==> m[|NetworkErrorPrefix|..] == localizedMessage.value
    ensures localizedMessage.None? ==> m[|NetworkErrorPrefix|..] == "null"
  {
    NetworkErrorPrefix + localizedMessage.GetOr("null")
  }

  /** The body of a login or sign-up request. */
  datatype Credentials = Credentials(email: string, password: string)

  /** A submit's effect: the new form state, and the request it sends, if any. */
  datatype Submission<F> = Submission(form: F, request: Option<Credentials>)

  /** What a finished request hands back: the user's e-mail (and token), or an error text. */
  datatype AuthOutcome = Authenticated(email: string, token: Option<string>) | Rejected(message: string)

  /** A finished request's effect: the new form state and the outcome. */
  datatype Resolution<F> = Resolution(form: F, outcome: AuthOutcome)
}

=== FILE: login.dfy ===
/** The "Login here" screen: its fields, the submit-time checks and the login request. */
module Login {
  import opened Optional
  import opened Text
  import opened Forms

  /**
   * The screen's state. The password field has a flag but no text of its
   * own: it always shows `PleaseEnterPassword` when flagged.
   */
  datatype Form = Form(
    email: Field,
    password: string,
    passwordError: bool,
    loading: bool,
    apiError: Option<string>,
    valid: bool)

  const Initial: Form := Form(EmptyField, "", false, false, None, true)

  /** Typing into the e-mail field clears its error flag and text and nothing else. */
  function EditEmail(f: Form, v: string): (g: Form)
    ensures g.email.value == v && !g.email.isError
    ensures Forms.Consistent(f.email) ==> Forms.Consistent(g.email)
    ensures g.password == f.password && g.passwordError == f.passwordError
    ensures g.loading == f.loading && g.apiError == f.apiError && g.valid == f.valid
  {
    f.(email := Edit(f.email, v))
  }

  /** Typing into the password field clears its error flag and nothing else. */
  function EditPassword(f: Form, v: string): (g: Form)
    ensures g.password == v && !g.passwordError
    ensures g.email == f.email
    ensures g.loading == f.loading && g.apiError == f.apiError && g.valid == f.valid
  {
    f.(password := v, passwordError := false)
  }

  /**
   * Pressing "Sign in". The button is disabled while a request is in flight,
   * so then nothing happens. Otherwise the errors are reset, the e-mail shows
   * the first check it fails, a blank password is flagged (no strength policy
   * here), and the request is sent only when neither field is flagged.
   */
  function Submit(f: Form, isEmail: string -> bool): (s: Submission<Form>)
    ensures f.loading ==> s == Submission(f, None)
    ensures !f.loading ==> s.form.email.value == f.email.value && s.form.password == f.password
    ensures !f.loading ==> Shows(s.form.email, EmailError(f.email.value, isEmail))
    ensures !f.loading ==> (s.form.passwordError <==> IsBlank(f.password))
    ensures !f.loading ==> s.form.valid
    ensures s.request.Some? <==> !f.loading && !s.form.email.isError && !s.form.passwordError
    ensures s.request.Some? ==> s.request.value == Credentials(f.email.value, f.password)
    ensures s.request.Some? ==> s.form.loading && s.form.apiError.None?
    ensures !f.loading && s.request.None? ==> !s.form.loading && s.form.apiError == f.apiError
  {
    if f.loading then Submission(f, None)
    else
      var email := Judge(f.email, EmailError(f.email.value, isEmail));
      var checked := f.(email := email, passwordError := IsBlank(f.password), valid := true);
      if !email.isError && !checked.passwordError then
        Submission(checked.(loading := true, apiError := None), Some(Credentials(f.email.value, f.password)))
      else
        Submission(checked, None)
  }

  /** The request is sent exactly when idle, the e-mail is well formed and the password is not blank. */
  lemma SubmitSendsIffValid(f: Form, isEmail: string -> bool)
    ensures Submit(f, isEmail).request.Some? <==>
      !f.loading && !IsBlank(f.email.value) && isEmail(f.email.value) && !IsBlank(f.password)
  {
  }

  /**
   * At most one login request is in flight: after a submit that sends one,
   * no edits and no further submit send another until it finishes.
   */
  lemma AtMostOneInFlight(f: Form, isEmail: string -> bool, e: string, p: string)
    requires Submit(f, isEmail).request.Some?
    ensures Submit(EditPassword(EditEmail(Submit(f, isEmail).form, e), p), isEmail).request.None?
  {
  }

  /** The login reply's body. */
  datatype LoginBody = LoginBody(userToken: Option<string>, message: string)

  /**
   * The error body of a reply, as far as the JSON parser gets: not a JSON
   * object (absent, unreadable or malformed), or an object whose "message"
   * entry may be missing.
   */
  datatype ErrorBody = NotAnObject | JsonObject(message: Option<string>)

  /** What the login request yields: a reply, or an exception with its localized message. */
  datatype LoginResponse =
    | Response(isSuccessful: bool, body: Option<LoginBody>, errorBody: ErrorBody)
    | Exception(localizedMessage: Option<string>)

  /** The reply logged the user in: it is successful and carries a user token. */
  predicate LoggedIn(resp: LoginResponse) {
    resp.Response? && resp.isSuccessful && resp.body.Some? && resp.body.value.userToken.Some?
  }

  /** The text taken from an error body: its "message" entry, or the fallback. */
  function ErrorBodyMessage(b: ErrorBody): (m: string)
    ensures b.JsonObject? && b.message.Some? ==> m == b.message.value
    ensures b.NotAnObject? || b.message.None? ==> m == SignupFailed
  {
    match b
    case NotAnObject => SignupFailed
    case JsonObject(message) => message.GetOr(SignupFailed)
  }

  /**
   * The login request finishing, as the screen's code does it: the success
   * callback receives the e-mail field's value at the time the reply
   * arrives, which the user may have edited since the submit.
   */
  function ResolveAsWritten(f: Form, resp: LoginResponse): (r: Resolution<Form>)
    ensures !r.form.loading
    ensures r.form.email == f.email && r.form.password == f.password && r.form.passwordError == f.passwordError
    ensures r.outcome.Authenticated? <==> LoggedIn(resp)
    ensures r.outcome.Authenticated? ==> r.outcome == Authenticated(f.email.value, resp.body.value.userToken)
    ensures r.outcome.Authenticated? ==> r.form.valid == f.valid && r.form.apiError == f.apiError
    ensures r.outcome.Rejected? ==> !r.form.valid && r.form.apiError == Some(r.outcome.message)
    ensures resp.Exception? ==> r.outcome == Rejected(NetworkError(resp.localizedMessage))
    ensures resp.Response? && !LoggedIn(resp) ==> r.outcome == Rejected(ErrorBodyMessage(resp.errorBody))
  {
    match resp
    case Response(_, body, errorBody) =>
      if LoggedIn(resp) then
        Resolution(f.(loading := false), Authenticated(f.email.value, body.value.userToken))
      else
        var message := ErrorBodyMessage(errorBody);
        Resolution(f.(loading := false, valid := false, apiError := Some(message)), Rejected(message))
    case Exception(m) =>
      Resolution(f.(loading := false, valid := false, apiError := Some(NetworkError(m))), Rejected(NetworkError(m)))
  }

  /**
   * The login request finishing, with the callback receiving the e-mail that
   * was sent. Anything but a token-carrying success marks the form invalid
   * with the error body's message, the fallback, or the network error.
   * Loading ends on every path.
   */
  function Resolve(f: Form, sent: Credentials, resp: LoginResponse): (r: Resolution<Form>)
    ensures !r.form.loading
    ensures r.form.email == f.email && r.form.password == f.password && r.form.passwordError == f.passwordError
    ensures r.outcome.Authenticated? <==> LoggedIn(resp)
    ensures r.outcome.Authenticated? ==> r.outcome == Authenticated(sent.email, resp.body.value.userToken)
    ensures r.outcome.Authenticated? ==> r.form.valid == f.valid && r.form.apiError == f.apiError
    ensures r.outcome.Rejected? ==> !r.form.valid && r.form.apiError == Some(r.outcome.message)
    ensures resp.Exception? ==> r.outcome == Rejected(NetworkError(resp.localizedMessage))
    ensures resp.Response? && !LoggedIn(resp) ==> r.outcome == Rejected(ErrorBodyMessage(resp.errorBody))
  {
    match resp
    case Response(_, body, errorBody) =>
      if LoggedIn(resp) then
        Resolution(f.(loading := false), Authenticated(sent.email, body.value.userToken))
      else
        var message := ErrorBodyMessage(errorBody);
        Resolution(f.(loading := false, valid := false, apiError := Some(message)), Rejected(message))
    case Exception(m) =>
      Resolution(f.(loading := false, valid := false, apiError := Some(NetworkError(m))), Rejected(NetworkError(m)))
  }

  /** The two agree whenever the e-mail field still holds the submitted e-mail. */
  lemma ResolveAgreesWhenUnedited(f: Form, sent: Credentials, resp: LoginResponse)
    requires f.email.value == sent.email
    ensures ResolveAsWritten(f, resp) == Resolve(f, sent, resp)
  {
  }

  /**
   * The code as written behaves as if the request had been sent with
   * whatever the e-mail field holds when the reply arrives.
   */
  lemma ResolveAsWrittenUsesFieldEmail(f: Form, resp: LoginResponse)
    ensures ResolveAsWritten(f, resp) == Resolve(f, Credentials(f.email.value, f.password), resp)
  {
  }

  /**
   * Submitting "ann@x.io", then changing the e-mail field to "bob@y.io"
   * while the request is in flight: the code as written signs in "bob@y.io"
   * with Ann's token, while the submitted e-mail is "ann@x.io".
   */
  lemma EditedEmailReachesCallback()
    ensures
      var isEmail := (e: string) => e == "ann@x.io";
      var s := Submit(EditPassword(EditEmail(Initial, "ann@x.io"), "pw"), isEmail);
      var edited := EditEmail(s.form, "bob@y.io");
      var reply := Response(true, Some(LoginBody(Some("t"), "")), NotAnObject);
      && s.request == Some(Credentials("ann@x.io", "pw"))
      && ResolveAsWritten(edited, reply).outcome == Authenticated("bob@y.io", Some("t"))
      && Resolve(edited, s.request.value, reply).outcome == Authenticated("ann@x.io", Some("t"))
  {
    var isEmail := (e: string) => e == "ann@x.io";
    var f := EditPassword(EditEmail(Initial, "ann@x.io"), "pw");
    assert !IsBlank(f.email.value) by { assert !IsWhitespace(f.email.value[0]); }
    assert !IsBlank(f.password) by { assert !IsWhitespace(f.password[0]); }
  }

  /** The request error is shown, possibly empty, whenever the form is invalid. */
  function ShownApiError(f: Form): (e: Option<string>)
    ensures e.Some? <==> !f.valid
    ensures e.Some? ==> e.value == f.apiError.GetOr("")
  {
    if !f.valid then Some(f.apiError.GetOr("")) else None
  }

  /** A failed request's text is what the screen shows. */
  lemma RejectionIsShown(f: Form, sent: Credentials, resp: LoginResponse)
    requires !LoggedIn(resp)
    ensures ShownApiError(Resolve(f, sent, resp).form) == Some(Resolve(f, sent, resp).outcome.message)
  {
  }

  /** A submit hides the previous request's error until the new one fails. */
  lemma SubmitHidesOldError(f: Form, isEmail: string -> bool)
    requires !f.loading
    ensures ShownApiError(Submit(f, isEmail).form).None?
  {
  }
}

=== FILE: optional.dfy ===
/** A value that may be absent: Kotlin's nullable types (`String?`, `Location?`). */
module Optional {

  datatype Option<+T> = None | Some(value: T) {

    /** The value, or `default` when absent: Kotlin's elvis operator `x ?: default`. */
    function GetOr(default: T): (r: T)
      ensures Some? ==> r == value
      ensures None? ==> r == default
    {
      match this
      case Some(v) => v
      case None => default
    }
  }
}

=== FILE: password.dfy ===
/**
 * The sign-up screen's password policy: the list of unmet rules and the
 * strength meter shown under the password field.
 */
module PasswordPolicy {
  import opened Optional
  import opened Text
  import opened Ranges

  /** The characters that satisfy the "special character" rule. */
  const SpecialCharacters: string := "!@#$%^&*()-_=+[]{}|;:'\",.<>?/`~"

  /** The five rules of the policy. */
  datatype Rule = MinLength | Uppercase | Lowercase | Digit | Special

  /** The rules in the order `validatePassword` reports them. */
  const Rules: seq<Rule> := [MinLength, Uppercase, Lowercase, Digit, Special]

  /** A rule's position in `Rules`. */
  function Index(r: Rule): (k: nat)
    ensures k < |Rules| && Rules[k] == r
  {
    match r
    case MinLength => 0
    case Uppercase => 1
    case Lowercase => 2
    case Digit => 3
    case Special => 4
  }

  /** The text `validatePassword` reports for a broken rule. */
  function Message(r: Rule): string {
    match r
    case MinLength => "at least 8 characters"
    case Uppercase => "one uppercase letter"
    case Lowercase => "one lowercase letter"
    case Digit => "one digit"
    case Special => "one special character"
  }

  predicate HasUpper(p: string) { exists i :: 0 <= i < |p| && IsUpper(p[i]) }
  predicate HasLower(p: string) { exists i :: 0 <= i < |p| && IsLower(p[i]) }
  predicate HasDigit(p: string) { exists i :: 0 <= i < |p| && IsDigit(p[i]) }
  predicate HasSpecial(p: string) { exists i :: 0 <= i < |p| && p[i] in SpecialCharacters }

  predicate Meets(p: string, r: Rule) {
    match r
    case MinLength => |p| >= 8
    case Uppercase => HasUpper(p)
    case Lowercase => HasLower(p)
    case Digit => HasDigit(p)
    case Special => HasSpecial(p)
  }

  /** The password meets every rule of the policy. */
  predicate IsAcceptable(p: string) {
    |p| >= 8 && HasUpper(p) && HasLower(p) && HasDigit(p) && HasSpecial(p)
  }

  /** The rule a reported message stands for, as a position in `Rules`; 5 for any other string. */
  function Rank(m: string): (k: nat)
    ensures k <= 5
  {
    if m == Message(MinLength) then 0
    else if m == Message(Uppercase) then 1
    else if m == Message(Lowercase) then 2
    else if m == Message(Digit) then 3
    else if m == Message(Special) then 4
    else 5
  }

  /** Distinct rules have distinct messages: a message names its rule. */
  lemma RankOfMessage(r: Rule)
    ensures Rank(Message(r)) == Index(r)
  {
  }

  /** Every entry is a rule message and the entries follow the rule order (so none repeats). */
  predicate InRuleOrder(ms: seq<string>) {
    && (forall i :: 0 <= i < |ms| ==> Rank(ms[i]) < 5)
    && (forall i, j :: 0 <= i < j < |ms| ==> Rank(ms[i]) < Rank(ms[j]))
  }

  predicate StrictlyOrdered(rs: seq<Rule>) {
    forall i, j :: 0 <= i < j < |rs| ==> Index(rs[i]) < Index(rs[j])
  }

  /** How many of the rules in `rs` the password meets. */
  function CountMet(p: string, rs: seq<Rule>): (n: nat)
    ensures n <= |rs|
  {
    if rs == [] then 0 else (if Meets(p, rs[0]) then 1 else 0) + CountMet(p, rs[1..])
  }

  /** The rules of `rs` that `p` breaks, in the order of `rs`. */
  function Broken(p: string, rs: seq<Rule>): (out: seq<Rule>)
    ensures |out| + CountMet(p, rs) == |rs|
    ensures forall r :: r in out <==> r in rs && !Meets(p, r)
    ensures StrictlyOrdered(rs) ==> StrictlyOrdered(out)
  {
    if rs == [] then []
    else
      var rest := Broken(p, rs[1..]);
      assert forall r :: r in rs[1..] ==> r in rs;
      if Meets(p, rs[0]) then rest
      else
        assert StrictlyOrdered(rs) ==> forall r :: r in rest ==> Index(rs[0]) < Index(r);
        [rs[0]] + rest
  }

  /** The policy's rules that `p` breaks, in rule order. */
  function MissingRules(p: string): (broken: seq<Rule>)
    ensures |broken| + CountMet(p, Rules) == 5
    ensures forall r :: r in broken <==> !Meets(p, r)
    ensures StrictlyOrdered(broken)
  {
    assert forall r :: r in Rules by {
      forall r ensures r in Rules { assert Rules[Index(r)] == r; }
    }
    Broken(p, Rules)
  }

  /** The reported text of each rule, in the same order. */
  function Messages(rs: seq<Rule>): (ms: seq<string>)
    ensures |ms| == |rs|
    ensures forall i :: 0 <= i < |rs| ==> ms[i] == Message(rs[i])
  {
    seq(|rs|, i requires 0 <= i < |rs| => Message(rs[i]))
  }

  /** A rule's message is among the reported ones exactly when the rule is. */
  lemma MessagesMembership(rs: seq<Rule>, r: Rule)
    ensures Message(r) in Messages(rs) <==> r in rs
  {
  }

  /** Rules in rule order report their messages in rule order. */
  lemma MessagesInOrder(rs: seq<Rule>)
    requires StrictlyOrdered(rs)
    ensures InRuleOrder(Messages(rs))
  {
    var ms := Messages(rs);
    forall i | 0 <= i < |rs| ensures Rank(ms[i]) == Index(rs[i]) {
      RankOfMessage(rs[i]);
    }
  }

  /** `validatePassword`: the messages of the rules the password breaks. */
  function ValidatePassword(p: string): (missing: seq<string>)
    ensures |missing| <= 5
    ensures InRuleOrder(missing)
    ensures forall r :: Message(r) in missing <==> !Meets(p, r)
    ensures missing == [] <==> IsAcceptable(p)
  {
    var broken := MissingRules(p);
    assert IsAcceptable(p) <==> forall r :: Meets(p, r) by {
      assert IsAcceptable(p) <==> (Meets(p, MinLength) && Meets(p, Uppercase) && Meets(p, Lowercase)
        && Meets(p, Digit) && Meets(p, Special));
    }
    assert broken != [] ==> broken[0] in broken;
    MessagesInOrder(broken);
    forall r ensures Message(r) in Messages(broken) <==> !Meets(p, r) {
      MessagesMembership(broken, r);
    }
    Messages(broken)
  }

  /** Each message is reported exactly when its rule is broken. */
  lemma MessagesMatchRules(p: string)
    ensures "at least 8 characters" in ValidatePassword(p) <==> |p| < 8
    ensures "one uppercase letter" in ValidatePassword(p) <==> !HasUpper(p)
    ensures "one lowercase letter" in ValidatePassword(p) <==> !HasLower(p)
    ensures "one digit" in ValidatePassword(p) <==> !HasDigit(p)
    ensures "one special character" in ValidatePassword(p) <==> !HasSpecial(p)
  {
    assert Message(MinLength) == "at least 8 characters";
    assert Message(Uppercase) == "one uppercase letter";
    assert Message(Lowercase) == "one lowercase letter";
    assert Message(Digit) == "one digit";
    assert Message(Special) == "one special character";
  }

  /** The unmet list and the met rules together account for all five rules. */
  lemma MissingComplementsMet(p: string)
    ensures |ValidatePassword(p)| + CountMet(p, Rules) == 5
  {
  }

  datatype Strength = Weak | Medium | Strong

  /** The meter under the password field: a label and a fill fraction. */
  datatype Meter = Meter(strength: Strength, fraction: real)

  /**
   * The strength meter; absent while the password is empty. The fraction is
   * the share of the five rules met, and "Medium" needs a share of at least 0.6.
   */
  function StrengthMeter(p: string): (m: Option<Meter>)
    ensures m.None? <==> p == []
    ensures m.Some? ==> 0.0 <= m.value.fraction <= 1.0
    ensures m.Some? ==> m.value.fraction == CountMet(p, Rules) as real / 5.0
    ensures m.Some? ==> (m.value.strength == Strong <==> IsAcceptable(p))
    ensures m.Some? ==> (m.value.strength == Medium <==> !IsAcceptable(p) && m.value.fraction >= 0.6)
    ensures m.Some? ==> (m.value.strength == Weak <==> m.value.fraction < 0.6)
  {
    if p == [] then None
    else
      var missing := ValidatePassword(p);
      var totalRules := 5.0;
      var metRules := totalRules - |missing| as real;
      var fraction := CoerceIn(metRules / totalRules, 0.0, 1.0);
      MissingComplementsMet(p);
      var strength := if missing == [] then Strong else if fraction >= 0.6 then Medium else Weak;
      Some(Meter(strength, fraction))
  }

  /** The labels in terms of how many rules are missing: Medium is one or two missing. */
  lemma StrengthByMissingCount(p: string)
    requires p != []
    ensures StrengthMeter(p).value.strength == Strong <==> |ValidatePassword(p)| == 0
    ensures StrengthMeter(p).value.strength == Medium <==> 1 <= |ValidatePassword(p)| <= 2
    ensures StrengthMeter(p).value.strength == Weak <==> |ValidatePassword(p)| >= 3
  {
  }

  /** A password rejected by the policy is never labelled Strong, and an accepted one always is. */
  lemma StrongIsExactlyAcceptable(p: string)
    requires p != []
    ensures StrengthMeter(p).value.strength == Strong <==> ValidatePassword(p) == []
  {
  }
}

=== FILE: ranges.dfy ===
/** Kotlin's range coercion on floating-point values, taken as reals. */
module Ranges {
  /** Kotlin's `x.coerceIn(lo, hi)`: `x` itself inside the range, the nearer bound outside it. */
  function CoerceIn(x: real, lo: real, hi: real): (r: real)
    requires lo <= hi
    ensures lo <= r <= hi
    ensures lo <= x <= hi ==> r == x
    ensures x < lo ==> r == lo
    ensures x > hi ==> r == hi
  {
    if x < lo then lo else if x > hi then hi else x
  }
}

=== FILE: signup.dfy ===
/** The "Create Account" screen: its fields, the submit-time checks and the sign-up request. */
module Signup {
  import opened Optional
  import opened Text
  import opened PasswordPolicy
  import opened Forms

  /** The screen's state: three fields, the in-flight flag, and the request's error. */
  datatype Form = Form(
    email: Field,
    password: Field,
    confirmPassword: Field,
    loading: bool,
    apiError: Option<string>,
    valid: bool)

  const Initial: Form := Form(EmptyField, EmptyField, EmptyField, false, None, true)

  /** Every field's error flag agrees with its error text. */
  predicate Consistent(f: Form) {
    Forms.Consistent(f.email) && Forms.Consistent(f.password) && Forms.Consistent(f.confirmPassword)
  }

  /** Typing into the e-mail field clears only that field's error. */
  function EditEmail(f: Form, v: string): (g: Form)
    ensures g.email.value == v && !g.email.isError
    ensures g.password == f.password && g.confirmPassword == f.confirmPassword
    ensures g.loading == f.loading && g.apiError == f.apiError && g.valid == f.valid
    ensures Consistent(f) ==> Consistent(g)
  {
    f.(email := Edit(f.email, v))
  }

  /** Typing into the password field clears only that field's error. */
  function EditPassword(f: Form, v: string): (g: Form)
    ensures g.password.value == v && !g.password.isError
    ensures g.email == f.email && g.confirmPassword == f.confirmPassword
    ensures g.loading == f.loading && g.apiError == f.apiError && g.valid == f.valid
    ensures Consistent(f) ==> Consistent(g)
  {
    f.(password := Edit(f.password, v))
  }

  /** Typing into the confirmation field clears only that field's error. */
  function EditConfirmPassword(f: Form, v: string): (g: Form)
    ensures g.confirmPassword.value == v && !g.confirmPassword.isError
    ensures g.email == f.email && g.password == f.password
    ensures g.loading == f.loading && g.apiError == f.apiError && g.valid == f.valid
    ensures Consistent(f) ==> Consistent(g)
  {
    f.(confirmPassword := Edit(f.confirmPassword, v))
  }

  const TooWeakPrefix := "Password is too weak: missing "
  const PleaseConfirmPassword := "Please confirm password"
  const PasswordsDoNotMatch := "Passwords do not match"

  /** A password that meets the policy is not blank: it holds an uppercase letter. */
  lemma AcceptableIsNotBlank(p: string)
    ensures IsAcceptable(p) ==> !IsBlank(p)
  {
  }

  /**
   * The password check on submit: blank first, then the policy, whose unmet
   * rules are listed after the prefix, separated by ", ".
   */
  function PasswordError(p: string): (e: Option<string>)
    ensures e == Some(PleaseEnterPassword) <==> IsBlank(p)
    ensures e.None? <==> IsAcceptable(p)
    ensures !IsBlank(p) && !IsAcceptable(p) ==> e == Some(TooWeakPrefix + Join(ValidatePassword(p), ", "))
  {
    AcceptableIsNotBlank(p);
    if IsBlank(p) then Some(PleaseEnterPassword)
    else
      var m := ValidatePassword(p);
      if m != [] then
        assert (TooWeakPrefix + Join(m, ", "))[..|TooWeakPrefix|] == TooWeakPrefix;
        Some(TooWeakPrefix + Join(m, ", "))
      else None
  }

  /** The "too weak" text names every rule the password breaks. */
  lemma WeakMessageNamesEachBrokenRule(p: string, r: Rule)
    requires !IsBlank(p) && !Meets(p, r)
    ensures PasswordError(p).Some? && Contains(PasswordError(p).value, Message(r))
  {
    var m := ValidatePassword(p);
    var k :| 0 <= k < |m| && m[k] == Message(r);
    JoinContainsEach(m, ", ", k);
    var i :| 0 <= i <= |Join(m, ", ")| && OccursAt(Join(m, ", "), Message(r), i);
    OccursAfterPrefix(TooWeakPrefix, Join(m, ", "), Message(r), i);
  }

  /** The confirmation check on submit: blank first, then equality with the password. */
  function ConfirmPasswordError(c: string, p: string): (e: Option<string>)
    ensures e == Some(PleaseConfirmPassword) <==> IsBlank(c)
    ensures e == Some(PasswordsDoNotMatch) <==> !IsBlank(c) && c != p
    ensures e.None? <==> !IsBlank(c) && c == p
  {
    if IsBlank(c) then Some(PleaseConfirmPassword)
    else if c != p then Some(PasswordsDoNotMatch)
    else None
  }

  /**
   * Pressing "Sign up": every error is reset, each field shows the first
   * check it fails, and the request is sent only when no field shows an error.
   */
  function Submit(f: Form, isEmail: string -> bool): (s: Submission<Form>)
    ensures s.form.email.value == f.email.value
    ensures s.form.password.value == f.password.value
    ensures s.form.confirmPassword.value == f.confirmPassword.value
    ensures Shows(s.form.email, EmailError(f.email.value, isEmail))
    ensures Shows(s.form.password, PasswordError(f.password.value))
    ensures Shows(s.form.confirmPassword, ConfirmPasswordError(f.confirmPassword.value, f.password.value))
    ensures Consistent(s.form) && s.form.valid
    ensures s.request.Some? <==> !s.form.email.isError && !s.form.password.isError && !s.form.confirmPassword.isError
    ensures s.request.Some? ==> s.request.value == Credentials(f.email.value, f.password.value)
    ensures s.request.Some? ==> s.form.loading && s.form.apiError.None?
    ensures s.request.None? ==> s.form.loading == f.loading && s.form.apiError == f.apiError
  {
    var email := Judge(f.email, EmailError(f.email.value, isEmail));
    var password := Judge(f.password, PasswordError(f.password.value));
    var confirm := Judge(f.confirmPassword, ConfirmPasswordError(f.confirmPassword.value, f.password.value));
    var checked := f.(email := email, password := password, confirmPassword := confirm, valid := true);
    if !email.isError && !password.isError && !confirm.isError then
      Submission(checked.(loading := true, apiError := None), Some(Credentials(f.email.value, f.password.value)))
    else
      Submission(checked, None)
  }

  /** The request is sent exactly when the e-mail is well formed, the password meets the policy and is confirmed. */
  lemma SubmitSendsIffValid(f: Form, isEmail: string -> bool)
    ensures Submit(f, isEmail).request.Some? <==>
      && !IsBlank(f.email.value) && isEmail(f.email.value)
      && IsAcceptable(f.password.value)
      && f.confirmPassword.value == f.password.value
  {
  }

  /** The body of a sign-up reply. */
  datatype SignupBody = SignupBody(objectId: Option<string>, message: Option<string>)

  /** What the sign-up request yields: a reply, or an exception with its localized message. */
  datatype SignupResponse =
    | Response(isSuccessful: bool, body: Option<SignupBody>)
    | Exception(localizedMessage: Option<string>)

  /** The reply created the account: it is successful and carries the new object's id. */
  predicate Created(resp: SignupResponse) {
    resp.Response? && resp.isSuccessful && resp.body.Some? && resp.body.value.objectId.Some?
  }

  /**
   * The sign-up request finishing. Success hands the submitted e-mail on;
   * anything else marks the form invalid with the reply's message, the
   * generic failure text, or the network error. Loading ends on every path.
   */
  function Resolve(f: Form, sent: Credentials, resp: SignupResponse): (r: Resolution<Form>)
    ensures !r.form.loading
    ensures r.form.email == f.email && r.form.password == f.password && r.form.confirmPassword == f.confirmPassword
    ensures r.outcome.Authenticated? <==> Created(resp)
    ensures r.outcome.Authenticated? ==> r.outcome.email == sent.email
    ensures r.outcome.Authenticated? ==> r.form.valid == f.valid && r.form.apiError == f.apiError
    ensures r.outcome.Rejected? ==> !r.form.valid && r.form.apiError == Some(r.outcome.message)
    ensures resp.Exception? ==> r.outcome.Rejected? && r.outcome.message == NetworkError(resp.localizedMessage)
    ensures resp.Response? && !Created(resp) ==>
      r.outcome.Rejected? && r.outcome.message == (if resp.body.Some? then resp.body.value.message.GetOr(SignupFailed) else SignupFailed)
  {
    match resp
    case Response(_, body) =>
      if Created(resp) then
        Resolution(f.(loading := false), Authenticated(sent.email, None))
      else
        var message := if body.Some? then body.value.message.GetOr(SignupFailed) else SignupFailed;
        Resolution(f.(loading := false, valid := false, apiError := Some(message)), Rejected(message))
    case Exception(m) =>
      Resolution(f.(loading := false, valid := false, apiError := Some(NetworkError(m))), Rejected(NetworkError(m)))
  }

  /** The request error shown under the button: only when the form is invalid and there is a text. */
  function ShownApiError(f: Form): (e: Option<string>)
    ensures e.Some? <==> !f.valid && f.apiError.Some?
    ensures e.Some? ==> e == f.apiError
  {
    if !f.valid && f.apiError.Some? then f.apiError else None
  }

  /** A failed request's text is shown until the next submit. */
  lemma RejectionIsShown(f: Form, sent: Credentials, resp: SignupResponse)
    requires !Created(resp)
    ensures ShownApiError(Resolve(f, sent, resp).form) == Some(Resolve(f, sent, resp).outcome.message)
  {
  }

  /**
   * The sign-up button is not disabled while a request is in flight: a
   * second valid submit sends a second request.
   */
  lemma ResubmitWhileLoadingSendsAgain(f: Form, isEmail: string -> bool)
    requires Submit(f, isEmail).request.Some?
    ensures Submit(f, isEmail).form.loading
    ensures Submit(Submit(f, isEmail).form, isEmail).request == Submit(f, isEmail).request
  {
  }

  /** Edits never break the agreement between a field's error flag and its error text. */
  lemma EditsKeepConsistency(f: Form, e: string, p: string, c: string)
    requires Consistent(f)
    ensures Consistent(EditConfirmPassword(EditPassword(EditEmail(f, e), p), c))
  {
  }
}

=== FILE: text.dfy ===
/**
 * The handful of Kotlin standard-library string operations the screens use,
 * on strings as sequences of characters.
 */
module Text {
  import opened Optional

  /**
   * Kotlin's `Char.isWhitespace()` on the JVM: the control characters 9-13
   * and 28-31 together with the Unicode space, line and paragraph separators.
   */
  function IsWhitespace(c: char): (b: bool)
    ensures c == ' ' || c == '\t' || c == '\n' || c == '\r' ==> b
    ensures IsUpper(c) || IsLower(c) || IsDigit(c) ==> !b
  {
    || ('\t' <= c <= '\r')
    || ('\U{1C}' <= c <= '\U{1F}')
    || c == ' ' || c == '\U{A0}' || c == '\U{1680}'
    || ('\U{2000}' <= c <= '\U{200A}')
    || c == '\U{2028}' || c == '\U{2029}' || c == '\U{202F}' || c == '\U{205F}' || c == '\U{3000}'
  }

  /** Kotlin's `isBlank()`: empty, or whitespace only. */
  function IsBlank(s: string): (b: bool)
    ensures s == [] ==> b
    ensures (exists i :: 0 <= i < |s| && (IsUpper(s[i]) || IsLower(s[i]) || IsDigit(s[i]))) ==> !b
  {
    forall i :: 0 <= i < |s| ==> IsWhitespace(s[i])
  }

  /** Kotlin's `trimStart()`: `s` without its leading whitespace. */
  function TrimStart(s: string): (r: string)
    ensures |r| <= |s| && r == s[|s| - |r|..]
    ensures |r| > 0 ==> !IsWhitespace(r[0])
  {
    if |s| > 0 && IsWhitespace(s[0]) then TrimStart(s[1..]) else s
  }

  /** A string is blank exactly when trimming its leading whitespace leaves nothing. */
  lemma {:induction false} BlankIffTrimsToEmpty(s: string)
    ensures IsBlank(s) <==> TrimStart(s) == []
  {
    if |s| > 0 && IsWhitespace(s[0]) {
      BlankIffTrimsToEmpty(s[1..]);
      assert IsBlank(s) <==> IsBlank(s[1..]) by {
        assert forall i :: 1 <= i < |s| ==> s[1..][i - 1] == s[i];
      }
    }
  }

  /** ASCII stand-ins for `Char.isUpperCase()`, `isLowerCase()` and `isDigit()`. */
  predicate IsUpper(c: char) { 'A' <= c <= 'Z' }
  predicate IsLower(c: char) { 'a' <= c <= 'z' }
  predicate IsDigit(c: char) { '0' <= c <= '9' }

  /** `sub` occurs in `s` starting at index `i`. */
  predicate OccursAt(s: string, sub: string, i: int) {
    0 <= i && i + |sub| <= |s| && s[i..i + |sub|] == sub
  }

  /** Kotlin's `s.contains(sub)`: `sub` occurs somewhere in `s`. */
  function Contains(s: string, sub: string): (b: bool)
    ensures |sub| == 0 ==> b
    ensures sub == s ==> b
    ensures b ==> |sub| <= |s|
  {
    assert OccursAt(s, [], 0);
    assert OccursAt(s, s, 0);
    exists i | 0 <= i <= |s| :: OccursAt(s, sub, i)
  }

  /** An occurrence survives adding text on either side. */
  lemma ContainsInside(pre: string, s: string, post: string, sub: string)
    requires Contains(s, sub)
    ensures Contains(pre + s + post, sub)
  {
    var i :| 0 <= i <= |s| && OccursAt(s, sub, i);
    var t := pre + s + post;
    assert t[|pre| + i..|pre| + i + |sub|] == s[i..i + |sub|];
    assert OccursAt(t, sub, |pre| + i);
  }

  /**
   * Kotlin's `s.substring(start, end)`, which throws
   * `StringIndexOutOfBoundsException` unless `0 <= start <= end <= s.length`;
   * the exception is `None` here.
   */
  function Substring(s: string, start: nat, end: nat): (r: Option<string>)
    ensures r.Some? <==> start <= end <= |s|
    ensures r.Some? ==> |r.value| == end - start
    ensures r.Some? ==> forall k :: 0 <= k < end - start ==> r.value[k] == s[start + k]
  {
    if start <= end <= |s| then Some(s[start..end]) else None
  }

  /**
   * Kotlin's `s.substringBefore("@")`: the part of `s` before the first `d`,
   * or all of `s` when `d` does not occur.
   */
  function SubstringBefore(s: string, d: char): (r: string)
    ensures |r| <= |s| && r == s[..|r|]
    ensures d !in r
    ensures |r| < |s| ==> s[|r|] == d
  {
    if |s| == 0 || s[0] == d then "" else [s[0]] + SubstringBefore(s[1..], d)
  }

  /** ASCII stand-in for `Char.uppercase()`. */
  function ToUpper(c: char): (u: char)
    ensures IsLower(c) ==> IsUpper(u)
    ensures IsLower(c) ==> u as int - 'A' as int == c as int - 'a' as int
    ensures !IsLower(c) ==> u == c
  {
    if IsLower(c) then (c as int - 'a' as int + 'A' as int) as char else c
  }

  /** Kotlin's `s.replaceFirstChar { it.uppercase() }`. */
  function Capitalize(s: string): (r: string)
    ensures |r| == |s|
    ensures |s| > 0 ==> r[0] == ToUpper(s[0]) && r[1..] == s[1..]
  {
    if |s| == 0 then s else [ToUpper(s[0])] + s[1..]
  }

  /** Kotlin's `xs.joinToString(sep)`. */
  function Join(xs: seq<string>, sep: string): (r: string)
    ensures |xs| == 0 ==> r == []
    ensures |xs| > 1 ==> OccursAt(r, sep, |xs[0]|)
  {
    if |xs| == 0 then ""
    else if |xs| == 1 then xs[0]
    else xs[0] + sep + Join(xs[1..], sep)
  }

  /** The joined string starts with the first item. */
  lemma JoinStartsWithFirst(xs: seq<string>, sep: string)
    requires |xs| > 0
    ensures var r := Join(xs, sep); |xs[0]| <= |r| && r[..|xs[0]|] == xs[0]
  {
    if |xs| > 1 {
      assert Join(xs, sep) == xs[0] + (sep + Join(xs[1..], sep));
    }
  }

  /** The joined length is the items' total plus one separator between each neighbouring pair. */
  lemma {:induction false} JoinLength(xs: seq<string>, sep: string)
    requires |xs| > 0
    ensures |Join(xs, sep)| == TotalLength(xs) + (|xs| - 1) * |sep|
  {
    if |xs| > 1 {
      JoinLength(xs[1..], sep);
      assert TotalLength(xs) == |xs[0]| + TotalLength(xs[1..]);
      OneMoreTimes(|xs| - 2, |sep|);
    }
  }

  /** `(n + 1) * k` is one more `k` than `n * k`. */
  lemma OneMoreTimes(n: int, k: int)
    ensures (n + 1) * k == k + n * k
  {
  }

  /** The joined string ends with the last item. */
  lemma {:induction false} JoinEndsWithLast(xs: seq<string>, sep: string)
    requires |xs| > 0
    ensures var r, last := Join(xs, sep), xs[|xs| - 1]; |last| <= |r| && r[|r| - |last|..] == last
  {
    if |xs| > 1 {
      JoinEndsWithLast(xs[1..], sep);
      var rest, last := Join(xs[1..], sep), xs[|xs| - 1];
      assert xs[1..][|xs[1..]| - 1] == last;
      var r := Join(xs, sep);
      assert r == (xs[0] + sep) + rest;
      assert r[|r| - |last|..] == rest[|rest| - |last|..];
    }
  }

  /** The combined length of all the strings in `xs`. */
  function TotalLength(xs: seq<string>): (n: nat)
    ensures |xs| > 0 ==> n >= |xs[0]|
  {
    if |xs| == 0 then 0 else |xs[0]| + TotalLength(xs[1..])
  }

  /** Every joined element can be found again in the joined string. */
  lemma {:induction false} JoinContainsEach(xs: seq<string>, sep: string, k: nat)
    requires k < |xs|
    ensures Contains(Join(xs, sep), xs[k])
  {
    var j := Join(xs, sep);
    if k == 0 {
      assert OccursAt(j, xs[k], 0);
    } else {
      JoinContainsEach(xs[1..], sep, k - 1);
      var rest := Join(xs[1..], sep);
      assert xs[1..][k - 1] == xs[k];
      var i :| 0 <= i <= |rest| && OccursAt(rest, xs[k], i);
      assert j == (xs[0] + sep) + rest;
      OccursAfterPrefix(xs[0] + sep, rest, xs[k], i);
    }
  }

  /** An occurrence survives putting text in front of the string. */
  lemma OccursAfterPrefix(pre: string, s: string, sub: string, i: int)
    requires OccursAt(s, sub, i)
    ensures OccursAt(pre + s, sub, |pre| + i)
  {
  }
}
